=== FILE: README.md ===
# Speaker role classifier — a Dafny model

This project models the core of the speaker role classifier in Dafny. The classifier takes a diarized
conversation transcript whose lines begin with speaker labels (`Speaker 0: …`, `Alice: …`) and
relabels each speaker with a role such as `Agent` or `Customer`. A language model chooses the
mapping from labels to roles, and in the safeguard a language model proposes spot corrections
through a tool call. Here, both model calls are *arguments*:

- A mapping request is a `MappingReply`: either the decoded mapping or `Unparsable`, which stands
  for a reply that is not valid JSON.
- The safeguard's conversation is a sequence of `Response`s, one per round. A round's reply is
  either no tool call, a list of tool calls, or `Raise`, which stands for any exception the API
  call throws. A script that runs out counts as `Raise`.

Four source files make up the core, and each is one Dafny module:

- `Classifier` (`classifier.py`): label extraction, the non-target labels, one mapping request,
  validation of the mapping, reverse-sorted substitution, and a structured log.
- `ClassifierV2` (`classifier_v2.py`): the same analysis and substitution, but with no validation.
  It adds a `validate_only` switch, returns either the bare transcript or a dictionary with the
  log, and has the `ClassificationResult` record.
- `ClassifierBackup` (`classifier_backup.py`): the earliest pipeline. It validates the mapping
  against the `Speaker <digits>` tags at the start of stripped lines, substitutes, and keeps no log.
- `Safeguard` (`safeguard.py`): it locates an utterance by role and the first words of its text,
  corrects the role on one line, and runs the validation loop of at most three rounds with tool
  calls.
  The loop and `RunSafeguard` take the utterance search as a parameter of type `Finder`. The
  program's search is `FindUtteranceByPrefix`. The only property of the search the loop's proofs
  use is `InRange`: a reported line exists. `FindUtteranceInRange` proves that the program's search
  has it.

Several modules are shared:

- `Labels` and `Substitution` are each written once. The two versions of
  `_extract_speaker_labels`/`_identify_non_target_labels` are identical, and so are the versions
  of `_replace_speakers`/`_replace_labels`.
- `PyStr` spells out the Python string operations the code relies on: `strip`, `lower`,
  `split()`, `split('\n')` and `join`, `count`, `find`, `replace`, and `replace(…, 1)`.
- `StrOrder` spells out Python's code-point order on strings and `sorted(…, reverse=True)`.
- `Log` gives every log entry a variant of `LogEntry` and counts entries by their `step` name.
- `Errors` holds the three classification errors.
- `Wrappers` holds `Option`, `Result` and `Outcome`.

## Model

| member | source | states |
|---|---|---|
| Labels.LineLabel | src/speaker_role_classifier/classifier.py:35-41 | a line yields a label exactly when its stripped text has a colon that is not its first character; the label is non-empty, has no colon and is stripped |
| Labels.LineLabelBeforeColon | src/speaker_role_classifier/classifier.py:35-41 | when the stripped line is `a + ":" + b` with no colon in `a`, the label is `a` stripped, and there is none when `a` is empty |
| Labels.ExtractLabels | src/speaker_role_classifier/classifier.py:30-43 | a string is an extracted label exactly when some `\n`-separated line of the transcript contributes it; every extracted label is non-empty, colon-free and stripped |
| Labels.SkippedLineAddsNothing | src/speaker_role_classifier/classifier.py:36-41 | a blank line, or a line with no text before a colon, adds no label |
| Labels.NonTargetLabels | src/speaker_role_classifier/classifier.py:46-50 | the non-target labels are exactly the extracted labels that are not target roles |
| Classifier.ValidateMapping | src/speaker_role_classifier/classifier.py:134-150 | the mapping passes exactly when every label that needs a role is a key and every key is a label some line carries; missing keys are reported before unknown keys, each error lists exactly the offending labels, and neither is ever an invalid-JSON error |
| Classifier.ValidationIgnoresValues | src/speaker_role_classifier/classifier.py:134-150 | two mappings with the same keys get the same verdict, so the roles are never checked |
| Classifier.TargetLabelsNeedNoMapping | src/speaker_role_classifier/classifier.py:136-143 | a mapping whose keys are exactly the non-target labels passes; labels already equal to a target role need no key |
| Classifier.MappedRun | src/speaker_role_classifier/classifier.py:153-232 | a run that reaches substitution returns the substituted transcript, and its log is the configuration and label-analysis entries, the `mapping_request` with the roles and non-target labels, the `mapping_decision` with the mapping, one `label_replacement` with the substitution's records, then the placeholder exactly when the safeguard flag is set |
| Classifier.ClassifySpeakers | src/speaker_role_classifier/classifier.py:180-232 | with no label needing a role the transcript comes back unchanged and no mapping is consulted; otherwise the run fails exactly when the reply is not valid JSON or fails validation, with that error, and on success every needed label was mapped, every key occurs, and the mapping was applied |
| Classifier.ClassifiedLog | src/speaker_role_classifier/classifier.py:199-232 | a successful run's log opens with the configuration and label-analysis entries, holds one `label_replacement` when a mapping was applied, and ends with the placeholder exactly when the safeguard flag is set; a newline-free mapping keeps the line count |
| Substitution.ReplaceInOrderSubstitutes | src/speaker_role_classifier/classifier.py:158-170 | the loop's text is the text after every key's turn, where each turn replaces every `key:` by `role:` in the text the earlier turns produced; its records are exactly those of the keys whose `key:` occurs when their turn comes, in visiting order, each with its role and the count in the text at that turn |
| Substitution.StageShift | src/speaker_role_classifier/classifier.py:163-170 | a turn after the first acts on the text the first turn produced |
| Substitution.RecordsShift | src/speaker_role_classifier/classifier.py:163-176 | the records owed after the first key are those the remaining keys owe on the text the first turn produced |
| Substitution.RecordsFromAreOwed | src/speaker_role_classifier/classifier.py:168-176 | every record is that of a key whose `key:` occurs when its turn comes |
| Substitution.RecordsFromMembership | src/speaker_role_classifier/classifier.py:168-176 | with distinct keys, the record of a key is owed from a position on exactly when the key comes at or after it and its `key:` occurs at its turn |
| Substitution.RecordedIff | src/speaker_role_classifier/classifier.py:166-176 | with distinct keys, a key is recorded exactly when its `key:` occurs in the text when its turn comes, and its record counts the occurrences in that text |
| Substitution.ReplaceInOrderDescending | src/speaker_role_classifier/classifier.py:158-170 | visiting keys in strictly descending order gives records in strictly descending order, so no label is recorded twice |
| Substitution.ReplaceInOrderUnchanged | src/speaker_role_classifier/classifier.py:163-170 | with no record the text is unchanged; when no key's `label:` occurs, nothing is replaced or recorded |
| Substitution.ReplaceInOrderKeepsLines | src/speaker_role_classifier/classifier.py:163-170 | a mapping whose keys and roles have no line break keeps the number of line breaks |
| Substitution.ApplyMapping | src/speaker_role_classifier/classifier.py:153-177 | the text and records are those of the loop over the keys in reverse-sorted order, so each record has the role and a positive count and the records are strictly descending; a mapping whose markers do not occur is the identity; a newline-free mapping keeps the line count |
| Substitution.ApplyMappingRecords | src/speaker_role_classifier/classifier.py:163-176 | in the program's key order, a key is recorded exactly when its `key:` occurs in the text its turn comes to, with the count in that text |
| Substitution.StageUntouched | src/speaker_role_classifier/classifier.py:163-170 | a text in which no key's `key:` occurs is left as it is |
| Substitution.StageOfLine | src/speaker_role_classifier/classifier.py:163-170 | a line that begins with the only `key:` it holds, holds no other key's `tag:`, and holds none once relabelled, comes out with that `key:` replaced by `role:` and the rest kept |
| Substitution.StageJoin | src/speaker_role_classifier/classifier.py:163-170 | with a newline-free mapping the turns act on the `\n`-joined lines one line at a time |
| Substitution.ApplyMappingByLine | src/speaker_role_classifier/classifier.py:153-177 | on a transcript of such lines the substitution relabels each line whose `key:` starts it and leaves every other line unchanged |
| Substitution.ReplaceLabels | src/speaker_role_classifier/classifier_v2.py:191-226 | the text is that of the substitution, and the log grows by exactly one `label_replacement` entry whose records are exactly those of the keys whose `label:` occurs at their turn, in reverse-sorted order, each with its role and the count at that turn |
| Substitution.EmptyMappingIsIdentity | src/speaker_role_classifier/classifier_backup.py:143-152 | an empty mapping leaves the transcript unchanged and records nothing |
| StrOrder.SortedDescending | src/speaker_role_classifier/classifier.py:163 | `sorted(keys, reverse=True)` lists exactly the keys, in strictly descending code-point order |
| StrOrder.DescendingUnique | src/speaker_role_classifier/classifier.py:163 | a strictly descending list of a set's elements is the reverse-sorted order of that set |
| ClassifierV2.ClassificationResult.ToDict | src/speaker_role_classifier/classifier_v2.py:34-50 | `to_dict` carries the transcript and the log, and `__str__` is the transcript the dictionary holds |
| ClassifierV2.Mapped | src/speaker_role_classifier/classifier_v2.py:277-289 | a mapped run returns the substituted text, with the request, response and replacement entries between the opening entries and the placeholder |
| ClassifierV2.Run | src/speaker_role_classifier/classifier_v2.py:254-289 | a mapping is requested exactly when some label is not a target role and `validate_only` is off; the run fails only when that reply is not valid JSON; otherwise the mapping is applied with no validation, and without a request the transcript comes back unchanged |
| ClassifierV2.ClassifySpeakers | src/speaker_role_classifier/classifier_v2.py:229-298 | the result has the dictionary shape exactly when `return_dict` is set; it succeeds exactly when the run does, and either shape carries the run's transcript |
| ClassifierV2.PhantomKeysSkipped | src/speaker_role_classifier/classifier_v2.py:280-282 | keys that occur nowhere in the transcript are accepted and the transcript comes back unchanged |
| ClassifierV2.DefaultsShape | src/speaker_role_classifier/classifier_v2.py:229-234 | with the default flags a successful run returns the bare transcript and logs the safeguard placeholder last |
| ClassifierBackup.TagAt | src/speaker_role_classifier/classifier_backup.py:107-113 | a stripped line yields a tag exactly when `Speaker <digits>:` begins it, and the tag is that text |
| ClassifierBackup.TagsOfLines | src/speaker_role_classifier/classifier_backup.py:107-113 | a tag is collected exactly when some line yields it; every collected tag has the form `Speaker <digits>` |
| ClassifierBackup.ValidateMapping | src/speaker_role_classifier/classifier_backup.py:94-129 | passes exactly when the keys are the transcript's Speaker tags; a missing-tag error, naming exactly the unmapped tags, comes before an unknown-key error, which names exactly the keys no line carries |
| ClassifierBackup.NonSpeakerKeyRejected | src/speaker_role_classifier/classifier_backup.py:124-129 | a key not of the form `Speaker <digits>` is always rejected, even when the transcript uses it as a label |
| ClassifierBackup.ReplaceSpeakers | src/speaker_role_classifier/classifier_backup.py:132-152 | the result is the text after replacing every key's `key:` by `role:`, one key at a time in reverse-sorted order, each on the previous result; an empty mapping, or one whose markers do not occur, is the identity; a newline-free mapping keeps the line count |
| ClassifierBackup.ClassifySpeakers | src/speaker_role_classifier/classifier_backup.py:155-186 | an undecodable reply is an invalid-JSON error; otherwise the run succeeds exactly when the keys are the Speaker tags, fails with the validation error, and on success returns the substituted transcript, with as many lines as the input |
| ClassifierBackup.ClassifySpeakersExample | src/speaker_role_classifier/classifier_backup.py:170-175 | the worked example: with the reply mapping `Speaker 0` to Agent and `Speaker 1` to Customer, `Speaker 0: Hello` / `Speaker 1: Hi` validates and becomes `Agent: Hello` / `Customer: Hi` |
| ClassifierBackup.ReplaceTwoLines | src/speaker_role_classifier/classifier_backup.py:143-152 | two clean labelled lines are relabelled one by one |
| Safeguard.Normalised | src/speaker_role_classifier/safeguard.py:26 | at most ten words of a prefix are compared |
| Safeguard.MatchIsPrefix | src/speaker_role_classifier/safeguard.py:37-40 | comparing the first `len(prefix_words)` words means that the prefix words are a prefix of the utterance's words |
| Safeguard.LongPrefixNeverMatches | src/speaker_role_classifier/safeguard.py:36-41 | a prefix with more words than the utterance's first ten never matches |
| Safeguard.VerdictAt | src/speaker_role_classifier/safeguard.py:28-41 | the verdict the scan computes for line `j` is whether that line, stripped, is non-blank, starts with `role:` and has words after the label that begin with the prefix words |
| Safeguard.FirstFromFirst | src/speaker_role_classifier/safeguard.py:28-43 | the scan from index `i` stops at the first positive verdict at or after `i`, and finds nothing only when every later verdict is negative |
| Safeguard.FindsFirstQualifying | src/speaker_role_classifier/safeguard.py:10-43 | it returns the first line, by index, whose stripped text starts with `role:` and whose words match the prefix, together with the stripped text, which occurs in the line; it returns none exactly when no line qualifies |
| Safeguard.BlankPrefixMatchesFirstRoleLine | src/speaker_role_classifier/safeguard.py:26-41 | a blank prefix matches the first line that starts with `role:` after stripping, and nothing when no line does |
| Safeguard.OnlyTenWordsCount | src/speaker_role_classifier/safeguard.py:26 | two prefixes that agree on their first ten normalised words find the same line |
| Safeguard.FindUtteranceInRange | src/speaker_role_classifier/safeguard.py:23-43 | the line index the search reports is always a line of the transcript, so the loop never reaches the out-of-range branch of the correction |
| Safeguard.RewriteLine | src/speaker_role_classifier/safeguard.py:69-70 | the first `old:` on the line, at the position `find` reports, becomes `new:`, the rest of the line is kept, and the line is unchanged when `old:` is absent; no line break is introduced |
| Safeguard.CorrectSingleUtterance | src/speaker_role_classifier/safeguard.py:46-82 | an index out of range logs one `correction_error` and returns the transcript unchanged; otherwise one `utterance_corrected` entry records the index, both roles, and the line before and after its rewrite |
| Safeguard.CorrectionRewritesOneLine | src/speaker_role_classifier/safeguard.py:60-82 | a correction in range leaves the transcript's lines joined again with that one line replaced by its rewrite; when the new role has no line break, splitting the result gives back exactly the old lines with only that one replaced; a line without `old:` leaves the transcript unchanged |
| Safeguard.CorrectionKeepsLines | src/speaker_role_classifier/safeguard.py:60-82 | a new role without a line break keeps the number of lines, in range or not |
| Safeguard.CorrectionEntry | src/speaker_role_classifier/safeguard.py:62-80 | the entry is `utterance_corrected` exactly when the index is a line of the transcript, and otherwise the `correction_error` of that index |
| Safeguard.ProcessCall | src/speaker_role_classifier/safeguard.py:188-249 | a call raises exactly when its arguments are not JSON or it is a correction without a prefix; the log gains exactly the call's own entries; one correction is recorded exactly when a correction call's utterance is found, and then the transcript becomes the one `_correct_single_utterance` returns for the line found and the call's two roles; otherwise the text is unchanged |
| Safeguard.CallEntriesCount | src/speaker_role_classifier/safeguard.py:188-247 | a decoded call logs one `tool_call`; with a finder in range, one `utterance_corrected` exactly when it corrects and never a `correction_error`; no other step |
| Safeguard.CallOutcome | src/speaker_role_classifier/safeguard.py:198-247 | a correction whose utterance is not found logs `tool_call` and `utterance_not_found` and changes nothing else; a found one records the correction with its roles and reason, logs the correction's entry, and leaves the transcript's lines with the found one rewritten from the current to the correct role (exactly those lines after a split, when the correct role has no line break); an index past the last line leaves the transcript as it was |
| Safeguard.LookupEntry | src/speaker_role_classifier/safeguard.py:204-239 | the lookup's entry is `utterance_not_found` exactly when nothing is found, and otherwise `utterance_corrected` or `correction_error`; a finder in range never yields `correction_error` |
| Safeguard.Lookup | src/speaker_role_classifier/safeguard.py:204-247 | a lookup logs exactly its one entry and records one correction, with the call's roles and reason, exactly when the utterance is found, and then the transcript is the one `_correct_single_utterance` returns for the index found; when it is not found nothing else changes |
| Safeguard.Corrected | src/speaker_role_classifier/safeguard.py:211-227 | a found utterance replaces the transcript by the one `_correct_single_utterance` returns for its index and the two roles, appends that function's log entry, and records the correction with both roles and the reason |
| Safeguard.ProcessCalls | src/speaker_role_classifier/safeguard.py:188-249 | the calls of one reply raise exactly when one of them would; log and corrections only grow, by at most one correction per call, and the text is unchanged without a correction |
| Safeguard.FirstRaise | src/speaker_role_classifier/safeguard.py:188-196 | the position of the first call whose arguments fail to decode or that lacks a prefix, or the number of calls when none does; every call before it goes through |
| Safeguard.ApplyAppend | src/speaker_role_classifier/safeguard.py:188-225 | carrying out two runs of calls one after the other is carrying out their concatenation: the text is the second run applied to the first's result, and the corrections are the first's followed by the second's |
| Safeguard.ProcessCallsApplies | src/speaker_role_classifier/safeguard.py:188-225 | the calls leave the transcript with every call before the first raising one applied in order, each found correction rewriting the text the earlier ones left, and the corrections recorded are exactly those calls' own, appended to the earlier ones |
| Safeguard.ProcessCallsToolCalls | src/speaker_role_classifier/safeguard.py:188-196 | without a raise there is one `tool_call` entry per call |
| Safeguard.ProcessCallsCorrectionsLogged | src/speaker_role_classifier/safeguard.py:204-225 | with a finder in range the calls log one `utterance_corrected` entry per correction recorded and no `correction_error` |
| Safeguard.ProcessCallsOtherSteps | src/speaker_role_classifier/safeguard.py:188-247 | the calls log no step other than `tool_call`, `utterance_not_found`, `utterance_corrected` and `correction_error` |
| Safeguard.ProcessCallsKeepLines | src/speaker_role_classifier/safeguard.py:198-225 | calls whose correct roles have no line break keep the number of lines |
| Safeguard.CompleteEntry | src/speaker_role_classifier/safeguard.py:265-269 | the completion message is "No corrections needed" exactly when no correction was made, with the total count |
| Safeguard.Rounds | src/speaker_role_classifier/safeguard.py:160-278 | the rounds only add to log and corrections; a raising reply logs the iteration and `safeguard_error`; a reply with a tool call that raises ends the log with `safeguard_error`; a reply without tool calls logs the iteration and `safeguard_complete` with the corrections so far; neither quiet reply changes the text |
| Safeguard.RoundsApplies | src/speaker_role_classifier/safeguard.py:160-278 | the text the rounds leave is the input with every call the rounds carried out applied in order, and the corrections are the earlier ones followed by those calls' own; a raise keeps what the calls before it did |
| Safeguard.AfterCalls | src/speaker_role_classifier/safeguard.py:180-262 | a round with tool calls only adds to log and corrections, and when one of its calls raises, `safeguard_error` is the last entry |
| Safeguard.AfterCallsApplies | src/speaker_role_classifier/safeguard.py:180-278 | a round with tool calls and the rounds after it leave the text with the calls they carried out applied in order, and record exactly those calls' corrections |
| Safeguard.AfterCallsStops | src/speaker_role_classifier/safeguard.py:213-278 | when a call raises, no correction exists or no round is left, no further round runs: the text and corrections are those the calls before the first raising one produced, so a raise keeps the corrections made before it |
| Safeguard.AfterCallsContinues | src/speaker_role_classifier/safeguard.py:213-259 | when no call raised, a correction exists and a round is left, the next round starts from the text and corrections the calls produced |
| Safeguard.RoundsCorrectionsLogged | src/speaker_role_classifier/safeguard.py:160-278 | with a finder in range the rounds log one `utterance_corrected` entry per correction recorded and no `correction_error` |
| Safeguard.RoundsIterations | src/speaker_role_classifier/safeguard.py:156-262 | the remaining rounds log at least one and at most the remaining number of `safeguard_iteration` entries; exactly one when no correction exists at the end, and exactly one when this round's tool calls raise |
| Safeguard.AfterCallsIterations | src/speaker_role_classifier/safeguard.py:251-262 | after a reply with tool calls another round runs only while some correction exists and a round is left, and when no call raised, a correction exists and a round is left it does run, logging at least one more iteration; a raising call adds no further round |
| Safeguard.RoundsKeepLines | src/speaker_role_classifier/safeguard.py:160-278 | when no reply names a correct role with a line break, the rounds keep the number of lines |
| Safeguard.RunSafeguard | src/speaker_role_classifier/safeguard.py:85-286 | the log gains `safeguard_start`, the rounds and a final `safeguard_end` whose total is the number of corrections it lists; with no correction the text is unchanged; a quiet first reply changes nothing; the returned transcript is the input with every call the rounds carried out applied in order, and the final entry lists exactly those calls' corrections |
| Safeguard.OneRoundRun | src/speaker_role_classifier/safeguard.py:160-286 | for one reply of tool calls followed by a reply without, the returned transcript has the calls before the first raising one applied, and exactly their corrections are listed |
| Safeguard.RaisingRoundRun | src/speaker_role_classifier/safeguard.py:188-286 | when a call of the first reply raises, the transcript returned and the corrections listed are those the calls before it produced, and `safeguard_error` precedes `safeguard_end` |
| Safeguard.RaiseKeepsEarlierCorrection | src/speaker_role_classifier/safeguard.py:211-286 | a first call that corrects followed by one that raises returns the transcript with the first call's rewrite, lists exactly its correction, and logs `safeguard_error`; with a finder in range the text is the lines joined again with the found line rewritten |
| Safeguard.SafeguardCorrectionsLogged | src/speaker_role_classifier/safeguard.py:85-286 | with a finder in range, as the program's is, the final total equals the number of `utterance_corrected` entries logged, and no `correction_error` is logged |
| Safeguard.SafeguardIterations | src/speaker_role_classifier/safeguard.py:156-164 | one to three rounds run, and exactly one when no correction is made |
| Safeguard.SafeguardKeepsLines | src/speaker_role_classifier/safeguard.py:85-286 | when no reply names a correct role with a line break, the returned transcript has as many lines as the input |
| PyStr.SplitJoin | src/speaker_role_classifier/safeguard.py:60-82 | splitting the joined lines gives back the lines, when none holds a line break |
| PyStr.ReplaceFirstAtFind | src/speaker_role_classifier/safeguard.py:70 | `replace(p, q, 1)` rewrites the first occurrence `find` reports and nothing else |
| PyStr.CountPositive | src/speaker_role_classifier/classifier.py:166-167 | a pattern that occurs has a positive count |

## Left out

- The OpenAI calls, prompts, tool schema, model parameters and `OPENAI_API_KEY` check are left out. The replies are arguments (`MappingReply`, `Response`).
- The previous prompt is updated with the corrected transcript between safeguard rounds (`safeguard.py:254-258`). This is left out because it only shapes the next request, and the model's replies are given.
- `cli.py`, `__init__.py`, the AWS Lambda handler and infrastructure, and the demo scripts are not part of this model.
- Error messages are not modelled, including the `sorted` lists in the exception texts and the `error` string of `safeguard_error`. Errors carry their kind and the sets of offending labels.
- On a failed classification the log built so far is discarded, as the exception discards it in the source. Only the error is returned.
- Python's `str.lower()` is modelled on ASCII letters only, and `\d` only as the ASCII digits. Unicode case mapping and Unicode digits are not modelled.
- Negative line indices in `_correct_single_utterance` are not modelled: the index is a `nat`, and the program itself only passes indices it found.
- Tool arguments that decode to JSON but are not objects or hold non-string values are not modelled. Arguments are either undecodable or four optional strings. Likewise the values of a decoded mapping are strings here, where the program formats any JSON value with `f"{role}:"` (`classifier.py:161`).
- Safeguard.CorrectSingleUtterance: a missing `current_role` or `correct_role` is written into the log as the text "None", where the program logs Python's `None`. The substitution itself uses "None", as the program's f-strings do.
- Timestamps and the `prompt_length`, `model` and other fields of the mapping-request entries are left out of `LogEntry`, apart from the ones listed there.
- The worked example in the `classifier_backup.py` docstring is proved with the mapping reply given as an argument, since the model call is not modelled (`ClassifierBackup.ClassifySpeakersExample`).
- Substitution.ApplyMappingByLine: the line-by-line result is stated only for lines where no `key:` occurs except once at the start and no role produces another key's `key:`. Other texts, where replacements chain or hit the middle of a line, are described by the turn-by-turn text `Stage` alone.
- Safeguard.ProcessCalls: its own contract does not state the resulting text. `Safeguard.ProcessCallsApplies` states it, in a separate lemma so that the mutually recursive loop's proofs do not carry it.
- Safeguard.AfterCalls: its own contract does not state the resulting text and corrections. `Safeguard.AfterCallsApplies` and `Safeguard.AfterCallsStops` state them, for the same reason.
- Safeguard.Rounds: its own contract does not state the resulting text and corrections. `Safeguard.RoundsApplies` states them, for the same reason.
- Substitution.ReplaceInOrder: its own contract states only faithful records and the first record. Its text and complete record list are stated by `Substitution.ReplaceInOrderSubstitutes`.

Behaviours the code does not have, and neither does the model:

- No error for a malformed line: a line without a label is skipped.
- Unmapped labels are reported before unknown keys.
- Mapped roles are not checked against the target roles.
- Ambiguous utterance prefixes are not detected: the first match wins.
- The failure messages of tool results are not fed back to the model.
- `classify_speakers` in both classifier versions only logs a placeholder instead of running the safeguard.
- The substitution is not anchored to the start of a line, so `label:` is replaced anywhere in the text.

=== FILE: classifier.dfy ===
/**
 * `classifier.py`: label analysis, one mapping request, validation of the
 * returned mapping, and substitution. The mapping request is the `reply`
 * argument; it is consulted only when some label is not a target role.
 */
module Classifier {
  import opened Wrappers
  import opened PyStr
  import opened Labels
  import opened Substitution
  import opened Log
  import opened Oracle
  import opened Errors

  /** The label `l` needs a mapping: some line of the transcript carries it
      and it is not one of the target roles. */
  predicate NeedsMapping(transcript: string, targetRoles: seq<string>, l: string) {
    Contributes(Split(transcript, '\n'), l) && l !in targetRoles
  }

  /** `_validate_mapping`. Unmapped non-target labels are reported first; only
      when there are none are keys that no line carries reported. Mapping
      values are not looked at. */
  function ValidateMapping(transcript: string, mapping: map<string, string>, targetRoles: seq<string>)
    : (r: Outcome<ClassifyError>)
    ensures r.Pass? <==>
      (forall l :: NeedsMapping(transcript, targetRoles, l) ==> l in mapping) &&
      (forall k :: k in mapping ==> Contributes(Split(transcript, '\n'), k))
    ensures r.Fail? && r.error.MissingSpeakerMapping? <==>
      exists l :: NeedsMapping(transcript, targetRoles, l) && l !in mapping
    ensures r.Fail? && r.error.SpeakerNotFound? <==>
      (forall l :: NeedsMapping(transcript, targetRoles, l) ==> l in mapping) &&
      (exists k :: k in mapping && !Contributes(Split(transcript, '\n'), k))
    ensures r.Fail? ==> !r.error.InvalidJsonResponse?
    ensures r.Fail? && r.error.MissingSpeakerMapping? ==>
      r.error.missing != {} &&
      forall l :: l in r.error.missing <==> NeedsMapping(transcript, targetRoles, l) && l !in mapping
    ensures r.Fail? && r.error.SpeakerNotFound? ==>
      r.error.extra != {} &&
      forall k :: k in r.error.extra <==> k in mapping && !Contributes(Split(transcript, '\n'), k)
  {
    var labels := ExtractLabels(transcript);
    var unmapped := NonTargetLabels(transcript, targetRoles) - mapping.Keys;
    assert forall l :: l in unmapped <==> NeedsMapping(transcript, targetRoles, l) && l !in mapping;
    if unmapped != {} then
      Fail(MissingSpeakerMapping(unmapped))
    else
      var extra := mapping.Keys - labels;
      assert forall k :: k in extra <==> k in mapping && !Contributes(Split(transcript, '\n'), k);
      if extra != {} then
        Fail(SpeakerNotFound(extra))
      else
        Pass
  }

  /** Validation depends on the mapping's keys only. */
  lemma {:induction false} ValidationIgnoresValues(transcript: string, m1: map<string, string>, m2: map<string, string>,
                                targetRoles: seq<string>)
    requires m1.Keys == m2.Keys
    ensures ValidateMapping(transcript, m1, targetRoles) == ValidateMapping(transcript, m2, targetRoles)
  {
  }

  /** A label that equals a target role never needs a key: a mapping over
      exactly the non-target labels is accepted. */
  lemma {:induction false} TargetLabelsNeedNoMapping(transcript: string, mapping: map<string, string>, targetRoles: seq<string>)
    requires mapping.Keys == NonTargetLabels(transcript, targetRoles)
    ensures ValidateMapping(transcript, mapping, targetRoles) == Pass
  {
  }

  datatype Classified = Classified(transcript: string, log: seq<LogEntry>)

  /** The two entries every run starts with. */
  function Preamble(transcript: string, targetRoles: seq<string>, enableSafeguard: bool): seq<LogEntry> {
    [ Configuration(targetRoles, enableSafeguard, None),
      LabelAnalysis(ExtractLabels(transcript), targetRoles, NonTargetLabels(transcript, targetRoles)) ]
  }

  /** The entry `enable_safeguard` adds in place of running the safeguard. */
  function SafeguardTail(enableSafeguard: bool): seq<LogEntry> {
    if enableSafeguard then [SafeguardPlaceholder("not_yet_implemented")] else []
  }

  /** The log of a run that reached the substitution: preamble, request and
      decision, one `label_replacement`, then the tail. */
  function MappedRun(transcript: string, roles: seq<string>, enableSafeguard: bool,
                     mapping: map<string, string>): (r: Classified)
    ensures |r.log| >= 2 && r.log[..2] == Preamble(transcript, roles, enableSafeguard)
    ensures CountStep(r.log, LabelReplacementStep) == 1
    ensures CountStep(r.log, SafeguardStep) == (if enableSafeguard then 1 else 0)
    ensures enableSafeguard ==> r.log[|r.log| - 1] == SafeguardPlaceholder("not_yet_implemented")
    ensures NewlineFree(mapping) ==> |Split(r.transcript, '\n')| == |Split(transcript, '\n')|
    ensures r.transcript == ApplyMapping(transcript, mapping).text
    ensures r.log == Preamble(transcript, roles, enableSafeguard)
                     + [MappingRequest(roles, NonTargetLabels(transcript, roles)), MappingDecision(mapping),
                        LabelReplacement(ApplyMapping(transcript, mapping).replacements)]
                     + SafeguardTail(enableSafeguard)
  {
    var log := Preamble(transcript, roles, enableSafeguard)
               + [MappingRequest(roles, NonTargetLabels(transcript, roles)), MappingDecision(mapping)];
    var replaced := ReplaceLabels(transcript, mapping, log);
    MappedLogCounts(log, replaced.log, enableSafeguard);
    Classified(replaced.text, replaced.log + SafeguardTail(enableSafeguard))
  }

  lemma {:induction false} MappedLogCounts(log: seq<LogEntry>, replacedLog: seq<LogEntry>, enableSafeguard: bool)
    requires |log| == 4 && log[0].Configuration? && log[1].LabelAnalysis?
    requires log[2].MappingRequest? && log[3].MappingDecision?
    requires |replacedLog| == |log| + 1 && replacedLog[..|log|] == log
    requires replacedLog[|log|].LabelReplacement?
    ensures CountStep(replacedLog + SafeguardTail(enableSafeguard), LabelReplacementStep) == 1
    ensures CountStep(replacedLog + SafeguardTail(enableSafeguard), SafeguardStep) ==
      (if enableSafeguard then 1 else 0)
  {
    var entry := replacedLog[|log|];
    var tail := SafeguardTail(enableSafeguard);
    assert replacedLog == log + [entry];
    CountStepOne(entry, LabelReplacementStep);
    CountStepOne(entry, SafeguardStep);
    CountStepNone(log, LabelReplacementStep);
    CountStepNone(log, SafeguardStep);
    CountStepAppend(log, [entry], LabelReplacementStep);
    CountStepAppend(log, [entry], SafeguardStep);
    CountStepNone(tail, LabelReplacementStep);
    CountStepAppend(replacedLog, tail, LabelReplacementStep);
    SafeguardTailCount(replacedLog, enableSafeguard);
  }

  /** Appending the tail adds one `safeguard` entry exactly when enabled. */
  lemma {:induction false} SafeguardTailCount(log: seq<LogEntry>, enableSafeguard: bool)
    ensures CountStep(log + SafeguardTail(enableSafeguard), SafeguardStep) ==
      CountStep(log, SafeguardStep) + (if enableSafeguard then 1 else 0)
  {
    CountStepAppend(log, SafeguardTail(enableSafeguard), SafeguardStep);
  }

  lemma {:induction false} SomeLabelNeedsMapping(transcript: string, roles: seq<string>)
    requires NonTargetLabels(transcript, roles) != {}
    ensures exists l :: NeedsMapping(transcript, roles, l)
  {
    var l :| l in NonTargetLabels(transcript, roles);
    assert NeedsMapping(transcript, roles, l);
  }

  /** `classify_speakers`: when some label needs a mapping the reply is
      consulted and the run fails exactly when the reply is not valid JSON or
      the mapping is rejected; a run that succeeds then maps every label that
      needs it, names only labels of the transcript, and applies the mapping.
      When no label needs a mapping nothing is replaced. */
  function ClassifySpeakers(transcript: string, targetRoles: Option<seq<string>>, enableSafeguard: bool,
                            reply: MappingReply): (r: Result<Classified, ClassifyError>)
    ensures var roles := targetRoles.GetOr(DefaultRoles);
      && ((forall l :: !NeedsMapping(transcript, roles, l)) ==>
            r == Success(Classified(transcript, Preamble(transcript, roles, enableSafeguard) + SafeguardTail(enableSafeguard))))
      && ((exists l :: NeedsMapping(transcript, roles, l)) ==>
            && (r.Failure? <==> reply.Unparsable? || ValidateMapping(transcript, reply.mapping, roles).Fail?)
            && (r.Success? ==>
                  && (forall l :: NeedsMapping(transcript, roles, l) ==> l in reply.mapping)
                  && (forall k :: k in reply.mapping ==> Contributes(Split(transcript, '\n'), k))
                  && r.value == MappedRun(transcript, roles, enableSafeguard, reply.mapping)))
    ensures r.Failure? && reply.Unparsable? ==> r.error == InvalidJsonResponse
    ensures r.Failure? && reply.Mapping? ==> r.error == ValidateMapping(transcript, reply.mapping, targetRoles.GetOr(DefaultRoles)).error
  {
    var roles := targetRoles.GetOr(DefaultRoles);
    if NonTargetLabels(transcript, roles) == {} then
      assert forall l :: !NeedsMapping(transcript, roles, l);
      Success(Classified(transcript, Preamble(transcript, roles, enableSafeguard) + SafeguardTail(enableSafeguard)))
    else
      SomeLabelNeedsMapping(transcript, roles);
      match reply
      case Unparsable => Failure(InvalidJsonResponse)
      case Mapping(mapping) =>
        match ValidateMapping(transcript, mapping, roles)
        case Fail(e) => Failure(e)
        case Pass => Success(MappedRun(transcript, roles, enableSafeguard, mapping))
  }

  /** The log of a successful run starts with the preamble and holds one
      `safeguard` entry, last, exactly when enabled; when a mapping was
      applied it holds exactly one `label_replacement` entry, and a mapping
      free of line breaks keeps the number of lines. */
  lemma {:induction false} ClassifiedLog(transcript: string, targetRoles: Option<seq<string>>, enableSafeguard: bool,
                                         reply: MappingReply)
    requires ClassifySpeakers(transcript, targetRoles, enableSafeguard, reply).Success?
    ensures var roles := targetRoles.GetOr(DefaultRoles);
      var c := ClassifySpeakers(transcript, targetRoles, enableSafeguard, reply).value;
      && |c.log| >= 2 && c.log[..2] == Preamble(transcript, roles, enableSafeguard)
      && CountStep(c.log, SafeguardStep) == (if enableSafeguard then 1 else 0)
      && (enableSafeguard ==> c.log[|c.log| - 1] == SafeguardPlaceholder("not_yet_implemented"))
      && ((exists l :: NeedsMapping(transcript, roles, l)) ==>
            && CountStep(c.log, LabelReplacementStep) == 1
            && (NewlineFree(reply.mapping) ==> |Split(c.transcript, '\n')| == |Split(transcript, '\n')|))
  {
    var roles := targetRoles.GetOr(DefaultRoles);
    var log := Preamble(transcript, roles, enableSafeguard);
    if NonTargetLabels(transcript, roles) == {} {
      assert forall l :: !NeedsMapping(transcript, roles, l);
      SafeguardTailCount(log, enableSafeguard);
      CountStepNone(log, SafeguardStep);
    } else {
      SomeLabelNeedsMapping(transcript, roles);
    }
  }
}

=== FILE: classifier_backup.dfy ===
/**
 * `classifier_backup.py`: the earliest pipeline. It asks for a mapping,
 * validates it against the `Speaker <digits>` tags at the start of the
 * stripped lines only, and substitutes, with no log.
 */
module ClassifierBackup {
  import opened Wrappers
  import opened PyStr
  import opened Substitution
  import opened Oracle
  import opened Errors

  const Prefix: string := "Speaker "

  predicate IsDigit(c: char) {
    '0' <= c <= '9'
  }

  /** A tag of the form `Speaker <digits>`. */
  predicate IsSpeakerTag(t: string) {
    |t| > |Prefix| && t[..|Prefix|] == Prefix && forall i :: |Prefix| <= i < |t| ==> IsDigit(t[i])
  }

  /** The end of the run of digits starting at `i`. */
  function DigitsEnd(s: string, i: nat): (j: nat)
    requires i <= |s|
    ensures i <= j <= |s|
    ensures forall k :: i <= k < j ==> IsDigit(s[k])
    ensures j == |s| || !IsDigit(s[j])
    decreases |s| - i
  {
    if i == |s| || !IsDigit(s[i]) then i else DigitsEnd(s, i + 1)
  }

  /** The digit run ends exactly at the first non-digit. */
  lemma {:induction false} DigitsEndAt(s: string, i: nat, n: nat)
    requires i <= n < |s|
    requires forall k :: i <= k < n ==> IsDigit(s[k])
    requires !IsDigit(s[n])
    ensures DigitsEnd(s, i) == n
    decreases n - i
  {
    if i < n {
      DigitsEndAt(s, i + 1, n);
    }
  }

  /** When `Speaker <digits>:` begins `s`, the digit run after `Speaker `
      ends at its colon. */
  lemma {:induction false} TagDigitsEnd(s: string, t: string)
    requires IsSpeakerTag(t) && Marker(t) <= s
    ensures Prefix <= s && DigitsEnd(s, |Prefix|) == |t| && s[|t|] == ':' && s[..|t|] == t
  {
    var n := |t|;
    assert Marker(t)[n] == ':';
    assert forall k :: 0 <= k < n ==> s[k] == Marker(t)[k] == t[k];
    assert s[..n] == t;
    assert s[..|Prefix|] == t[..|Prefix|];
    DigitsEndAt(s, |Prefix|, n);
  }

  /** The tag at the start of an already stripped text: there is one exactly
      when some `Speaker <digits>:` begins the text, and it is that tag.
      Digits are ASCII only. */
  function TagAt(s: string): (r: Option<string>)
    ensures r.Some? ==> IsSpeakerTag(r.value) && Marker(r.value) <= s
    ensures forall t :: IsSpeakerTag(t) && Marker(t) <= s ==> r == Some(t)
  {
    forall t | IsSpeakerTag(t) && Marker(t) <= s
      ensures Prefix <= s && DigitsEnd(s, |Prefix|) == |t| && s[|t|] == ':' && s[..|t|] == t
    {
      TagDigitsEnd(s, t);
    }
    if Prefix <= s then
      var d := DigitsEnd(s, |Prefix|);
      if d > |Prefix| && d < |s| && s[d] == ':' then
        TagOfDigits(s, d);
        Some(s[..d])
      else
        None
    else
      None
  }

  lemma {:induction false} TagOfDigits(s: string, d: nat)
    requires Prefix <= s && |Prefix| < d < |s| && s[d] == ':'
    requires forall k :: |Prefix| <= k < d ==> IsDigit(s[k])
    ensures IsSpeakerTag(s[..d]) && Marker(s[..d]) <= s
  {
    var t := s[..d];
    assert t[..|Prefix|] == s[..|Prefix|];
    assert forall i :: |Prefix| <= i < |t| ==> t[i] == s[i];
    assert Marker(t) == s[..d + 1];
  }

  /** The tag a line yields: the tag at the start of its stripped text. */
  function SpeakerTag(line: string): Option<string> {
    TagAt(Strip(line))
  }

  /** Some line of `lines` yields the tag `t`. */
  predicate Carries(lines: seq<string>, t: string) {
    exists i :: 0 <= i < |lines| && SpeakerTag(lines[i]) == Some(t)
  }

  /** The Speaker tags of a list of lines: a tag is present exactly when some
      line yields it. */
  function TagsOfLines(lines: seq<string>): (r: set<string>)
    ensures forall t :: t in r <==> Carries(lines, t)
    ensures forall t :: t in r ==> IsSpeakerTag(t)
  {
    set i | 0 <= i < |lines| && SpeakerTag(lines[i]).Some? :: SpeakerTag(lines[i]).value
  }

  /** The Speaker tags of the transcript. */
  function SpeakerTags(transcript: string): set<string> {
    TagsOfLines(Split(transcript, '\n'))
  }

  /** `_validate_mapping`: every Speaker tag must be a key (checked first), and
      every key must be a Speaker tag of the transcript. */
  function ValidateMapping(transcript: string, mapping: map<string, string>): (r: Outcome<ClassifyError>)
    ensures r.Pass? <==> mapping.Keys == SpeakerTags(transcript)
    ensures r.Fail? && r.error.MissingSpeakerMapping? <==> !(SpeakerTags(transcript) <= mapping.Keys)
    ensures r.Fail? && r.error.MissingSpeakerMapping? ==>
      r.error.missing != {} && r.error.missing == SpeakerTags(transcript) - mapping.Keys
    ensures r.Fail? && r.error.SpeakerNotFound? ==>
      r.error.extra != {} && SpeakerTags(transcript) <= mapping.Keys &&
      forall k :: k in r.error.extra <==> k in mapping && k !in SpeakerTags(transcript)
    ensures r.Fail? ==> !r.error.InvalidJsonResponse?
  {
    var tags := SpeakerTags(transcript);
    var unmapped := tags - mapping.Keys;
    assert unmapped == {} ==> tags <= mapping.Keys by {
      if unmapped == {} {
        forall x | x in tags ensures x in mapping.Keys {
          assert x !in unmapped;
        }
      }
    }
    if unmapped != {} then
      Fail(MissingSpeakerMapping(unmapped))
    else
      var extra := mapping.Keys - tags;
      if extra != {} then Fail(SpeakerNotFound(extra)) else Pass
  }

  /** A key that is not of the form `Speaker <digits>` is never accepted, even
      when a line of the transcript carries it as a label. */
  lemma {:induction false} NonSpeakerKeyRejected(transcript: string, mapping: map<string, string>, k: string)
    requires k in mapping && !IsSpeakerTag(k)
    ensures ValidateMapping(transcript, mapping).Fail?
  {
  }

  /** `_replace_speakers`: the shared substitution, without a log. */
  function ReplaceSpeakers(transcript: string, mapping: map<string, string>): (r: string)
    ensures mapping == map[] ==> r == transcript
    ensures (forall k :: k in mapping ==> !Contains(transcript, Marker(k))) ==> r == transcript
    ensures NewlineFree(mapping) ==> |Split(r, '\n')| == |Split(transcript, '\n')|
    ensures r == Stage(transcript, KeyOrder(mapping), mapping, |KeyOrder(mapping)|)
  {
    EmptyMappingIsIdentity(transcript);
    ApplyMapping(transcript, mapping).text
  }

  /** `classify_speakers`: ask, validate, replace; any failure yields no transcript. */
  function ClassifySpeakers(transcript: string, reply: MappingReply): (r: Result<string, ClassifyError>)
    ensures reply.Unparsable? ==> r == Failure(InvalidJsonResponse)
    ensures reply.Mapping? ==>
      (r.Success? <==> reply.mapping.Keys == SpeakerTags(transcript))
    ensures reply.Mapping? && r.Failure? ==> r.error == ValidateMapping(transcript, reply.mapping).error
    ensures r.Success? && NewlineFree(reply.mapping) ==>
      |Split(r.value, '\n')| == |Split(transcript, '\n')|
    ensures r.Success? ==> r.value == ReplaceSpeakers(transcript, reply.mapping)
  {
    match reply
    case Unparsable => Failure(InvalidJsonResponse)
    case Mapping(mapping) =>
      match ValidateMapping(transcript, mapping)
      case Fail(e) => Failure(e)
      case Pass => Success(ReplaceSpeakers(transcript, mapping))
  }

  const ExampleTranscript: string := "Speaker 0: Hello\nSpeaker 1: Hi"
  const ExampleMapping: map<string, string> := map["Speaker 0" := "Agent", "Speaker 1" := "Customer"]

  /** The worked example of `classify_speakers`: with the reply mapping
      `Speaker 0` to Agent and `Speaker 1` to Customer, the two-line
      transcript validates and each line is relabelled. */
  lemma {:induction false} ClassifySpeakersExample()
    ensures ClassifySpeakers(ExampleTranscript, Mapping(ExampleMapping)) == Success("Agent: Hello\nCustomer: Hi")
  {
    ExampleValidates();
    ExampleReplaces();
  }

  lemma {:induction false} ExampleJoin()
    ensures Join(["Speaker 0: Hello", "Speaker 1: Hi"], '\n') == ExampleTranscript
  {
  }

  lemma {:induction false} ExampleJoinRelabelled()
    ensures Join(["Agent: Hello", "Customer: Hi"], '\n') == "Agent: Hello\nCustomer: Hi"
  {
  }

  lemma {:induction false} ExampleSplit()
    ensures Split(ExampleTranscript, '\n') == ["Speaker 0: Hello", "Speaker 1: Hi"]
  {
    var lines := ["Speaker 0: Hello", "Speaker 1: Hi"];
    ExampleJoin();
    assert '\n' !in lines[0] && '\n' !in lines[1];
    SplitJoin(lines, '\n');
  }

  /** A line that begins with the tag and has no surrounding whitespace
      yields that tag. */
  lemma {:induction false} ExampleTagOf(line: string, t: string)
    requires |line| > 0 && !IsSpace(line[0]) && !IsSpace(line[|line| - 1])
    requires IsSpeakerTag(t) && Marker(t) <= line
    ensures SpeakerTag(line) == Some(t)
  {
    assert StripStart(line) == 0;
    assert StripEnd(line) == |line|;
    assert Strip(line) == line;
  }

  lemma {:induction false} ExampleTags()
    ensures TagsOfLines(["Speaker 0: Hello", "Speaker 1: Hi"]) == {"Speaker 0", "Speaker 1"}
  {
    var lines := ["Speaker 0: Hello", "Speaker 1: Hi"];
    assert IsSpeakerTag("Speaker 0") && IsSpeakerTag("Speaker 1");
    ExampleTagOf(lines[0], "Speaker 0");
    ExampleTagOf(lines[1], "Speaker 1");
    forall t ensures Carries(lines, t) <==> t in {"Speaker 0", "Speaker 1"} {
      if t == "Speaker 0" { assert SpeakerTag(lines[0]) == Some(t); }
      if t == "Speaker 1" { assert SpeakerTag(lines[1]) == Some(t); }
    }
  }

  lemma {:induction false} ExampleValidates()
    ensures ValidateMapping(ExampleTranscript, ExampleMapping) == Pass
  {
    ExampleSplit();
    ExampleTags();
    assert ExampleMapping.Keys == {"Speaker 0", "Speaker 1"};
  }

  /** A line `tag: text` whose other characters rule out every key's `tag:`
      is clean for its tag. */
  lemma {:induction false} ExampleClean(line: string, k: string, other: string, role: string, text: string, c: char, d: char)
    requires ExampleMapping.Keys == {k, other} && k != other && ExampleMapping[k] == role
    requires line == Marker(k) + text
    requires c in k && c in other && c !in line[1..] && c !in Marker(role) + text
    requires d in other && d !in line
    ensures CleanLine(line, Some(k), ExampleMapping)
    ensures Relabel(line, Some(k), ExampleMapping) == Marker(role) + text
  {
    assert Marker(k) <= line && line[|Marker(k)|..] == text;
    assert c in Marker(k) && c in Marker(other) && d in Marker(other);
    MissingCharAbsent(line[1..], Marker(k), c);
    MissingCharAbsent(line, Marker(other), d);
    MissingCharAbsent(Marker(role) + text, Marker(k), c);
    MissingCharAbsent(Marker(role) + text, Marker(other), c);
  }

  lemma {:induction false} ExampleCharsFirst()
    ensures 'S' !in "Speaker 0: Hello"[1..] && 'S' !in Marker("Agent") + " Hello" && '1' !in "Speaker 0: Hello"
  {
  }

  lemma {:induction false} ExampleCleanFirst()
    ensures CleanLine("Speaker 0: Hello", Some("Speaker 0"), ExampleMapping)
    ensures Relabel("Speaker 0: Hello", Some("Speaker 0"), ExampleMapping) == "Agent: Hello"
  {
    var line := "Speaker 0: Hello";
    assert line == Marker("Speaker 0") + " Hello";
    assert ExampleMapping.Keys == {"Speaker 0", "Speaker 1"};
    ExampleCharsFirst();
    ExampleClean(line, "Speaker 0", "Speaker 1", "Agent", " Hello", 'S', '1');
  }

  lemma {:induction false} ExampleCharsSecond()
    ensures 'S' !in "Speaker 1: Hi"[1..] && 'S' !in Marker("Customer") + " Hi" && '0' !in "Speaker 1: Hi"
  {
  }

  lemma {:induction false} ExampleCleanSecond()
    ensures CleanLine("Speaker 1: Hi", Some("Speaker 1"), ExampleMapping)
    ensures Relabel("Speaker 1: Hi", Some("Speaker 1"), ExampleMapping) == "Customer: Hi"
  {
    var line := "Speaker 1: Hi";
    assert line == Marker("Speaker 1") + " Hi";
    assert ExampleMapping.Keys == {"Speaker 0", "Speaker 1"};
    ExampleCharsSecond();
    ExampleClean(line, "Speaker 1", "Speaker 0", "Customer", " Hi", 'S', '0');
  }

  /** Two clean labelled lines are relabelled one by one. */
  lemma {:induction false} ReplaceTwoLines(a: string, b: string, ka: string, kb: string, mapping: map<string, string>)
    requires NewlineFree(mapping)
    requires CleanLine(a, Some(ka), mapping) && CleanLine(b, Some(kb), mapping)
    ensures ReplaceSpeakers(Join([a, b], '\n'), mapping)
         == Join([Relabel(a, Some(ka), mapping), Relabel(b, Some(kb), mapping)], '\n')
  {
    var lines, leads := [a, b], [Some(ka), Some(kb)];
    ApplyMappingByLine(lines, leads, mapping);
    assert RelabelLines(lines, leads, mapping) == [Relabel(a, Some(ka), mapping), Relabel(b, Some(kb), mapping)];
  }

  lemma {:induction false} ExampleNewlineFree()
    ensures NewlineFree(ExampleMapping)
  {
  }

  lemma {:induction false} ExampleReplaces()
    ensures ReplaceSpeakers(ExampleTranscript, ExampleMapping) == "Agent: Hello\nCustomer: Hi"
  {
    ExampleJoin();
    ExampleCleanFirst();
    ExampleCleanSecond();
    ExampleNewlineFree();
    ReplaceTwoLines("Speaker 0: Hello", "Speaker 1: Hi", "Speaker 0", "Speaker 1", ExampleMapping);
    ExampleJoinRelabelled();
  }
}

=== FILE: classifier_v2.dfy ===
/**
 * `classifier_v2.py`: the same label analysis and substitution as
 * `classifier.py`, but the mapping is applied without any validation, the
 * mapping request can be skipped (`validate_only`), the safeguard placeholder
 * is on by default, and the caller chooses between the bare transcript and a
 * dictionary with the log.
 */
module ClassifierV2 {
  import opened Wrappers
  import opened PyStr
  import opened Labels
  import opened Substitution
  import opened Log
  import opened Oracle
  import opened Errors

  /** The model name recorded with the mapping response. */
  const Model: string := "gpt-5"

  /** `ClassificationResult`: a transcript and its log. */
  datatype ClassificationResult = ClassificationResult(transcript: string, log: seq<LogEntry>) {
    /** `to_dict`. */
    function ToDict(): (d: Output)
      ensures d.WithLog? && d.Text() == transcript && d.log == log
    {
      WithLog(transcript, log)
    }

    /** `__str__`: the transcript alone. */
    function ToString(): (s: string)
      ensures s == ToDict().Text()
    {
      transcript
    }
  }

  /** What `classify_speakers` returns: the bare transcript, or the dictionary
      with keys `transcript` and `log`. */
  datatype Output = Plain(text: string) | WithLog(transcript: string, log: seq<LogEntry>) {
    /** The transcript, whichever shape was chosen. */
    function Text(): string {
      match this
      case Plain(t) => t
      case WithLog(t, _) => t
    }
  }

  /** The optional flags of `classify_speakers`, with their defaults. */
  datatype Options = Options(targetRoles: Option<seq<string>>, enableSafeguard: bool,
                             validateOnly: bool, returnDict: bool)

  const Defaults: Options := Options(None, true, false, false)

  /** The two entries every run starts with. */
  function Head(transcript: string, opts: Options): seq<LogEntry> {
    var roles := opts.targetRoles.GetOr(DefaultRoles);
    [ Configuration(roles, opts.enableSafeguard, Some(opts.validateOnly)),
      LabelAnalysis(ExtractLabels(transcript), roles, NonTargetLabels(transcript, roles)) ]
  }

  /** The placeholder entry, when the safeguard flag is set. */
  function Tail(opts: Options): seq<LogEntry> {
    if opts.enableSafeguard then [SafeguardPlaceholder("not_implemented_yet")] else []
  }

  /** The entries of the mapping step. */
  function MappingEntries(transcript: string, opts: Options, mapping: map<string, string>): seq<LogEntry> {
    var roles := opts.targetRoles.GetOr(DefaultRoles);
    [ MappingRequest(roles, NonTargetLabels(transcript, roles)),
      MappingResponse(mapping, Model),
      LabelReplacement(ApplyMapping(transcript, mapping).replacements) ]
  }

  /** The mapping is requested only when some label is not a target role and
      `validate_only` is not set. */
  predicate Requests(transcript: string, opts: Options) {
    !opts.validateOnly && NonTargetLabels(transcript, opts.targetRoles.GetOr(DefaultRoles)) != {}
  }

  /** The log and transcript before the output shape is chosen. The reply is
      applied as it is: nothing checks its keys or its values. */
  function Run(transcript: string, opts: Options, reply: MappingReply): (r: Result<ClassificationResult, ClassifyError>)
    ensures r.Failure? <==> Requests(transcript, opts) && reply.Unparsable?
    ensures r.Failure? ==> r.error == InvalidJsonResponse
    ensures !Requests(transcript, opts) ==>
      r == Success(ClassificationResult(transcript, Head(transcript, opts) + Tail(opts)))
    ensures Requests(transcript, opts) && reply.Mapping? ==>
      && r.Success?
      && r.value.transcript == ApplyMapping(transcript, reply.mapping).text
      && r.value.log == Head(transcript, opts) + MappingEntries(transcript, opts, reply.mapping) + Tail(opts)
  {
    if Requests(transcript, opts) then
      match reply
      case Unparsable => Failure(InvalidJsonResponse)
      case Mapping(mapping) => Success(Mapped(transcript, opts, mapping))
    else
      Success(ClassificationResult(transcript, Head(transcript, opts) + Tail(opts)))
  }

  /** The run that applies a mapping reply. */
  function Mapped(transcript: string, opts: Options, mapping: map<string, string>): (r: ClassificationResult)
    ensures r.transcript == ApplyMapping(transcript, mapping).text
    ensures r.log == Head(transcript, opts) + MappingEntries(transcript, opts, mapping) + Tail(opts)
  {
    var roles := opts.targetRoles.GetOr(DefaultRoles);
    var log := Head(transcript, opts);
    var replaced := ReplaceLabels(transcript, mapping, log + [MappingRequest(roles, NonTargetLabels(transcript, roles)),
                                                              MappingResponse(mapping, Model)]);
    assert replaced.log == log + MappingEntries(transcript, opts, mapping);
    ClassificationResult(replaced.text, replaced.log + Tail(opts))
  }

  /** `classify_speakers`. */
  function ClassifySpeakers(transcript: string, opts: Options, reply: MappingReply): (r: Result<Output, ClassifyError>)
    ensures r.Success? ==> (opts.returnDict <==> r.value.WithLog?)
    ensures r.Success? <==> Run(transcript, opts, reply).Success?
    ensures r.Success? ==>
      && r.value.Text() == Run(transcript, opts, reply).value.transcript
      && (r.value.WithLog? ==> r.value == Run(transcript, opts, reply).value.ToDict())
  {
    match Run(transcript, opts, reply)
    case Failure(e) => Failure(e)
    case Success(res) => if opts.returnDict then Success(res.ToDict()) else Success(Plain(res.ToString()))
  }

  /** Without validation, a mapping whose keys name no label of the transcript
      is accepted; its keys are simply skipped. */
  lemma {:induction false} PhantomKeysSkipped(transcript: string, opts: Options, mapping: map<string, string>)
    requires !opts.validateOnly
    requires NonTargetLabels(transcript, opts.targetRoles.GetOr(DefaultRoles)) != {}
    requires forall k :: k in mapping ==> !Contains(transcript, Marker(k))
    ensures ClassifySpeakers(transcript, opts, Mapping(mapping)).Success?
    ensures ClassifySpeakers(transcript, opts, Mapping(mapping)).value.Text() == transcript
  {
  }

  /** With the defaults, a successful run returns the bare transcript and the
      safeguard placeholder is logged last. */
  lemma {:induction false} DefaultsShape(transcript: string, reply: MappingReply)
    requires ClassifySpeakers(transcript, Defaults, reply).Success?
    ensures ClassifySpeakers(transcript, Defaults, reply).value.Plain?
    ensures var log := Run(transcript, Defaults, reply).value.log;
      |log| > 0 && log[|log| - 1] == SafeguardPlaceholder("not_implemented_yet")
  {
  }
}

=== FILE: labels.dfy ===
/**
 * Speaker-label extraction, shared verbatim by `classifier.py` and
 * `classifier_v2.py`: each line is stripped, blank lines are skipped, and a
 * line whose stripped text matches `^([^:]+):` contributes its text before the
 * first colon, stripped again. A line without such a colon contributes
 * nothing; it is not an error.
 */
module Labels {
  import opened Wrappers
  import opened PyStr

  /** The target roles used when the caller passes none. */
  const DefaultRoles: seq<string> := ["Agent", "Customer"]

  /** What every extracted label looks like. */
  predicate IsLabel(l: string) {
    |l| > 0 && ':' !in l && IsStripped(l)
  }

  /** The index of the first colon, if any. */
  function FirstColon(s: string): (r: Option<nat>)
    ensures r.Some? ==> r.value < |s| && s[r.value] == ':' && ':' !in s[..r.value]
    ensures r.None? <==> ':' !in s
    decreases |s|
  {
    if |s| == 0 then None
    else if s[0] == ':' then Some(0)
    else
      var k := FirstColon(s[1..]);
      if k.None? then
        assert s == [s[0]] + s[1..];
        None
      else
        assert s[..k.value + 1] == [s[0]] + s[1..][..k.value];
        Some(k.value + 1)
  }

  /** The label a single line contributes, if any. */
  function LineLabel(line: string): (r: Option<string>)
    ensures r.Some? ==> IsLabel(r.value)
    ensures r.None? <==> var s := Strip(line); ':' !in s || s[0] == ':'
  {
    var s := Strip(line);
    if |s| == 0 then None
    else match FirstColon(s)
      case None => None
      case Some(i) =>
        if i == 0 then None
        else
          var l := Strip(s[..i]);
          StripKeepsHead(s[..i]);
          assert ':' !in l by {
            if ':' in l {
              StripChars(s[..i], ':');
            }
          }
          Some(l)
  }
  /** The label is the stripped text before the first colon of the stripped
      line: split that line at its first colon into `a + ":" + b`; the label
      is `strip(a)`, and there is none when `a` is empty. */
  lemma {:induction false} LineLabelBeforeColon(line: string, a: string, b: string)
    requires Strip(line) == a + ":" + b && ':' !in a
    ensures LineLabel(line) == (if |a| == 0 then None else Some(Strip(a)))
  {
    var s := Strip(line);
    assert s[|a|] == ':' && s[..|a|] == a;
  }

  /** Some line of `lines` contributes the label `l`. */
  predicate Contributes(lines: seq<string>, l: string) {
    exists i :: 0 <= i < |lines| && LineLabel(lines[i]) == Some(l)
  }

  /** The labels of a list of lines: a label is present exactly when some
      line contributes it. */
  function LabelsOfLines(lines: seq<string>): (r: set<string>)
    ensures forall l :: l in r <==> Contributes(lines, l)
    ensures forall l :: l in r ==> IsLabel(l)
    decreases |lines|
  {
    if |lines| == 0 then {}
    else
      var rest := LabelsOfLines(lines[1..]);
      var head := LineLabel(lines[0]);
      var r := if head.Some? then {head.value} + rest else rest;
      forall l
        ensures l in r <==> Contributes(lines, l)
      {
        if Contributes(lines, l) {
          var i :| 0 <= i < |lines| && LineLabel(lines[i]) == Some(l);
          if i > 0 {
            assert lines[1..][i - 1] == lines[i];
          }
        }
        if l in rest {
          var i :| 0 <= i < |lines[1..]| && LineLabel(lines[1..][i]) == Some(l);
          assert lines[i + 1] == lines[1..][i];
        }
      }
      r
  }

  /** `_extract_speaker_labels`: the distinct labels of the transcript's
      `\n`-separated lines; each is non-empty, colon-free and stripped. */
  function ExtractLabels(transcript: string): (r: set<string>)
    ensures forall l :: l in r <==> Contributes(Split(transcript, '\n'), l)
    ensures forall l :: l in r ==> IsLabel(l)
  {
    LabelsOfLines(Split(transcript, '\n'))
  }

  /** Appending a blank line, or a line with no label before a colon, adds no label. */
  lemma {:induction false} SkippedLineAddsNothing(lines: seq<string>, line: string)
    requires ':' !in Strip(line) || Strip(line)[0] == ':'
    ensures LabelsOfLines(lines + [line]) == LabelsOfLines(lines)
  {
    var all := lines + [line];
    assert LineLabel(line).None?;
    forall l
      ensures Contributes(all, l) <==> Contributes(lines, l)
    {
      if Contributes(all, l) {
        var i :| 0 <= i < |all| && LineLabel(all[i]) == Some(l);
        assert i < |lines| && all[i] == lines[i];
      }
      if Contributes(lines, l) {
        var i :| 0 <= i < |lines| && LineLabel(lines[i]) == Some(l);
        assert all[i] == lines[i];
      }
    }
  }

  /** `_identify_non_target_labels`: the extracted labels that are not target roles. */
  function NonTargetLabels(transcript: string, targetRoles: seq<string>): (r: set<string>)
    ensures r <= ExtractLabels(transcript)
    ensures forall l :: l in r ==> l !in targetRoles
    ensures forall l :: l in ExtractLabels(transcript) && l !in targetRoles ==> l in r
  {
    set l | l in ExtractLabels(transcript) && l !in targetRoles
  }
}

=== FILE: log.dfy ===
/**
 * The two LLM round-trips, as values handed to the model instead of network
 * calls, and the structured log every operation appends to.
 */
module Oracle {
  import opened Wrappers

  /** What the mapping call yields: the decoded JSON object, or a failure
      (empty content, undecodable JSON, or any error of the call itself), all
      of which the program reports as `InvalidJSONResponseError`. */
  datatype MappingReply = Mapping(mapping: map<string, string>) | Unparsable

  /** The decoded arguments of one tool call. `Undecodable` is an argument
      string `json.loads` rejects; otherwise each field is the string under its
      key, or `None` when the key is absent or null. */
  datatype ToolArgs =
    | Undecodable
    | Fields(currentRole: Option<string>, utterancePrefix: Option<string>,
             correctRole: Option<string>, reason: Option<string>)

  datatype ToolCall = ToolCall(name: string, args: ToolArgs)

  /** One reply of the tool-calling chat completion. `Tools([])` is an empty
      `tool_calls` list, which the program treats like no tool calls at all;
      `Raise` is a call that raised. */
  datatype Response = NoTools | Tools(calls: seq<ToolCall>) | Raise
}

module Log {
  import opened Wrappers
  import opened Oracle

  /** One entry of the `label_replacement` step: `occurrences` copies of
      `from:` were rewritten to `to:`. */
  datatype Replacement = Replacement(from: string, to: string, occurrences: nat)

  /** One successful safeguard correction, with the tool call's raw arguments. */
  datatype Correction = Correction(currentRole: Option<string>, correctRole: Option<string>, reason: Option<string>)

  /** The value of an entry's `step` key. */
  datatype Step =
    | ConfigurationStep
    | LabelAnalysisStep
    | MappingRequestStep
    | MappingDecisionStep
    | MappingResponseStep
    | LabelReplacementStep
    | SafeguardStep
    | SafeguardStartStep
    | SafeguardIterationStep
    | ToolCallsRequestedStep
    | ToolCallStep
    | UtteranceCorrectedStep
    | CorrectionErrorStep
    | UtteranceNotFoundStep
    | SafeguardCompleteStep
    | SafeguardErrorStep
    | SafeguardEndStep
  {
    /** The key's text in the program's log. */
    function Name(): string {
      match this
      case ConfigurationStep => "configuration"
      case LabelAnalysisStep => "label_analysis"
      case MappingRequestStep => "mapping_request"
      case MappingDecisionStep => "mapping_decision"
      case MappingResponseStep => "mapping_response"
      case LabelReplacementStep => "label_replacement"
      case SafeguardStep => "safeguard"
      case SafeguardStartStep => "safeguard_start"
      case SafeguardIterationStep => "safeguard_iteration"
      case ToolCallsRequestedStep => "tool_calls_requested"
      case ToolCallStep => "tool_call"
      case UtteranceCorrectedStep => "utterance_corrected"
      case CorrectionErrorStep => "correction_error"
      case UtteranceNotFoundStep => "utterance_not_found"
      case SafeguardCompleteStep => "safeguard_complete"
      case SafeguardErrorStep => "safeguard_error"
      case SafeguardEndStep => "safeguard_end"
    }
  }

  /** A log entry; `Kind()` is its `step` discriminator. Error messages of the
      source are reduced to the data they are built from. */
  datatype LogEntry =
    | Configuration(targetRoles: seq<string>, enableSafeguard: bool, validateOnly: Option<bool>)
    | LabelAnalysis(allLabels: set<string>, targetRoles: seq<string>, nonTargetLabels: set<string>)
    | MappingRequest(targetRoles: seq<string>, labelsToMap: set<string>)
    | MappingDecision(mapping: map<string, string>)
    | MappingResponse(mapping: map<string, string>, model: string)
    | LabelReplacement(replacements: seq<Replacement>)
    | SafeguardPlaceholder(status: string)
    | SafeguardStart(targetRoles: seq<string>)
    | SafeguardIteration(iteration: nat)
    | ToolCallsRequested(count: nat)
    | ToolCallMade(functionName: string, arguments: ToolArgs)
    | UtteranceCorrected(lineIndex: nat, oldRole: string, newRole: string, oldLine: string, newLine: string)
    | CorrectionError(lineIndex: nat)
    | UtteranceNotFound(currentRole: Option<string>, prefix: string)
    | SafeguardComplete(message: string, totalCorrections: nat)
    | SafeguardError
    | SafeguardEnd(correctionsMade: seq<Correction>, totalCorrections: nat)
  {
    function Kind(): Step {
      match this
      case Configuration(_, _, _) => ConfigurationStep
      case LabelAnalysis(_, _, _) => LabelAnalysisStep
      case MappingRequest(_, _) => MappingRequestStep
      case MappingDecision(_) => MappingDecisionStep
      case MappingResponse(_, _) => MappingResponseStep
      case LabelReplacement(_) => LabelReplacementStep
      case SafeguardPlaceholder(_) => SafeguardStep
      case SafeguardStart(_) => SafeguardStartStep
      case SafeguardIteration(_) => SafeguardIterationStep
      case ToolCallsRequested(_) => ToolCallsRequestedStep
      case ToolCallMade(_, _) => ToolCallStep
      case UtteranceCorrected(_, _, _, _, _) => UtteranceCorrectedStep
      case CorrectionError(_) => CorrectionErrorStep
      case UtteranceNotFound(_, _) => UtteranceNotFoundStep
      case SafeguardComplete(_, _) => SafeguardCompleteStep
      case SafeguardError => SafeguardErrorStep
      case SafeguardEnd(_, _) => SafeguardEndStep
    }
  }

  /** The steps of a log, entry by entry. */
  function Kinds(log: seq<LogEntry>): (r: seq<Step>)
    ensures |r| == |log|
  {
    seq(|log|, i requires 0 <= i < |log| => log[i].Kind())
  }

  /** The number of entries of `log` whose step is `step`. */
  function CountStep(log: seq<LogEntry>, step: Step): nat {
    multiset(Kinds(log))[step]
  }

  lemma {:induction false} CountStepOne(e: LogEntry, step: Step)
    ensures CountStep([e], step) == (if e.Kind() == step then 1 else 0)
  {
    assert Kinds([e]) == [e.Kind()];
  }

  lemma {:induction false} CountStepNone(log: seq<LogEntry>, step: Step)
    requires forall i :: 0 <= i < |log| ==> log[i].Kind() != step
    ensures CountStep(log, step) == 0
  {
    assert step !in Kinds(log) by {
      forall i | 0 <= i < |log| ensures Kinds(log)[i] != step {
        assert Kinds(log)[i] == log[i].Kind();
      }
    }
  }

  /** Appending one entry adds one to its own step's count and nothing to
      any other. */
  lemma {:induction false} CountStepSnoc(log: seq<LogEntry>, e: LogEntry, step: Step)
    ensures CountStep(log + [e], step) == CountStep(log, step) + (if e.Kind() == step then 1 else 0)
  {
    CountStepAppend(log, [e], step);
    CountStepOne(e, step);
  }

  lemma {:induction false} CountStepAppend(a: seq<LogEntry>, b: seq<LogEntry>, step: Step)
    ensures CountStep(a + b, step) == CountStep(a, step) + CountStep(b, step)
  {
    assert Kinds(a + b) == Kinds(a) + Kinds(b);
  }
}

/** The exception classes the three classifier variants raise. */
module Errors {
  datatype ClassifyError =
    | InvalidJsonResponse
    | MissingSpeakerMapping(missing: set<string>)  // the unmapped labels
    | SpeakerNotFound(extra: set<string>)          // the keys that are not labels
}

=== FILE: pystr.dfy ===
/**
 * The handful of Python `str` operations the classifier and the safeguard
 * rely on, written out so that their edge cases are explicit:
 * `strip()`, `split('\n')`, `'\n'.join(...)`, `lower()`, `split()`,
 * `startswith`, `in`, `find`, `count`, `replace` and `replace(..., 1)`.
 * Searching operations take a non-empty pattern: every pattern the program
 * searches for is a label followed by a colon.
 */
module PyStr {

  // ---------------------------------------------------------------------------
  // Whitespace, strip()

  /** The characters for which Python's `str.isspace()` holds; `strip()` and
      `split()` without arguments remove exactly these. */
  predicate IsSpace(c: char) {
    || ('\t' <= c <= '\r')
    || ('\U{1C}' <= c <= '\U{1F}')
    || c == ' '
    || c == '\U{85}'
    || c == '\U{A0}'
    || c == '\U{1680}'
    || ('\U{2000}' <= c <= '\U{200A}')
    || c == '\U{2028}'
    || c == '\U{2029}'
    || c == '\U{202F}'
    || c == '\U{205F}'
    || c == '\U{3000}'
  }

  predicate AllSpace(s: string) {
    forall i :: 0 <= i < |s| ==> IsSpace(s[i])
  }

  /** A string that `strip()` leaves alone: empty, or no whitespace at either end. */
  predicate IsStripped(s: string) {
    |s| == 0 || (!IsSpace(s[0]) && !IsSpace(s[|s| - 1]))
  }

  /** The first index at or after `i` that does not hold whitespace. */
  function SpaceEnd(s: string, i: nat): (a: nat)
    requires i <= |s|
    ensures i <= a <= |s|
    ensures forall k :: i <= k < a ==> IsSpace(s[k])
    ensures a < |s| ==> !IsSpace(s[a])
    decreases |s| - i
  {
    if i < |s| && IsSpace(s[i]) then SpaceEnd(s, i + 1) else i
  }

  /** The end of `s[lo..j]` once trailing whitespace is dropped. */
  function SpaceStart(s: string, lo: nat, j: nat): (b: nat)
    requires lo <= j <= |s|
    ensures lo <= b <= j
    ensures forall k :: b <= k < j ==> IsSpace(s[k])
    ensures b > lo ==> !IsSpace(s[b - 1])
    decreases j - lo
  {
    if j > lo && IsSpace(s[j - 1]) then SpaceStart(s, lo, j - 1) else j
  }

  /** Where `strip()` starts and ends in `s`. */
  function StripStart(s: string): (a: nat)
    ensures a <= |s|
  {
    SpaceEnd(s, 0)
  }

  function StripEnd(s: string): (b: nat)
    ensures StripStart(s) <= b <= |s|
  {
    SpaceStart(s, StripStart(s), |s|)
  }

  /** Python's `s.strip()`: whitespace removed from both ends, and nothing
      else: the result is the infix of `s` between leading and trailing
      whitespace. */
  function Strip(s: string): (r: string)
    ensures IsStripped(r) && StripStart(s) + |r| <= |s|
    ensures r == s[StripStart(s)..StripStart(s) + |r|]
    ensures AllSpace(s[..StripStart(s)]) && AllSpace(s[StripStart(s) + |r|..])
  {
    s[StripStart(s)..StripEnd(s)]
  }

  /** Every character of `Strip(s)` comes from `s`. */
  lemma {:induction false} StripChars(s: string, c: char)
    requires c in Strip(s)
    ensures c in s
  {
    var r := Strip(s);
    var a := StripStart(s);
    var i :| 0 <= i < |r| && r[i] == c;
    assert s[a + i] == c;
  }

  /** A string that starts with a non-space character keeps that character
      at its head after `strip()`. */
  lemma {:induction false} StripKeepsHead(s: string)
    requires |s| > 0 && !IsSpace(s[0])
    ensures |Strip(s)| > 0 && Strip(s)[0] == s[0]
  {
  }

  /** A blank string strips to the empty string. */
  lemma {:induction false} StripAllSpace(s: string)
    requires AllSpace(s)
    ensures Strip(s) == ""
  {
  }

  // ---------------------------------------------------------------------------
  // lower() and split()

  /** ASCII case folding; every other character is left unchanged. */
  function LowerChar(c: char): char {
    if 'A' <= c <= 'Z' then (c as int + 32) as char else c
  }

  function Lower(s: string): (r: string)
    ensures |r| == |s|
    ensures forall i :: 0 <= i < |s| ==> r[i] == LowerChar(s[i])
  {
    seq(|s|, i requires 0 <= i < |s| => LowerChar(s[i]))
  }

  /** A word of `split()`: non-empty, no whitespace inside. */
  predicate IsWord(w: string) {
    |w| > 0 && forall i :: 0 <= i < |w| ==> !IsSpace(w[i])
  }

  /** The end of the run of non-space characters starting at `i`. */
  function WordEnd(s: string, i: nat): (j: nat)
    requires i <= |s|
    ensures i <= j <= |s|
    ensures forall k :: i <= k < j ==> !IsSpace(s[k])
    ensures j == |s| || IsSpace(s[j])
    decreases |s| - i
  {
    if i == |s| || IsSpace(s[i]) then i else WordEnd(s, i + 1)
  }

  /** Python's `s.split()` with no separator: the maximal runs of non-space
      characters, in order; runs of whitespace, including leading and
      trailing whitespace, produce no empty words. */
  function Words(s: string): (r: seq<string>)
    ensures forall k :: 0 <= k < |r| ==> IsWord(r[k])
    ensures AllSpace(s) ==> r == []
    decreases |s|
  {
    if |s| == 0 then []
    else if IsSpace(s[0]) then Words(s[1..])
    else
      var n := WordEnd(s, 0);
      [s[..n]] + Words(s[n..])
  }

  /** Python's slice `xs[:n]`. */
  function Take<T>(xs: seq<T>, n: nat): (r: seq<T>)
    ensures |r| <= n && r <= xs
    ensures |xs| <= n ==> r == xs
  {
    if |xs| <= n then xs else xs[..n]
  }

  // ---------------------------------------------------------------------------
  // split(sep) and sep.join(...)

  /** The number of occurrences of the character `c` in `s`. */
  function Occ(s: string, c: char): nat
    decreases |s|
  {
    if |s| == 0 then 0 else (if s[0] == c then 1 else 0) + Occ(s[1..], c)
  }

  lemma {:induction false} OccAppend(a: string, b: string, c: char)
    ensures Occ(a + b, c) == Occ(a, c) + Occ(b, c)
    decreases |a|
  {
    if |a| == 0 {
      assert a + b == b;
    } else {
      assert (a + b)[1..] == a[1..] + b;
      OccAppend(a[1..], b, c);
    }
  }

  lemma {:induction false} OccAbsent(s: string, c: char)
    requires c !in s
    ensures Occ(s, c) == 0
    decreases |s|
  {
    if |s| > 0 {
      assert s[1..] <= s[1..];
      assert forall x :: x in s[1..] ==> x in s;
      OccAbsent(s[1..], c);
    }
  }

  /** Python's `s.split(sep)` for a one-character separator: always at least
      one piece, and no piece contains the separator. */
  function Split(s: string, sep: char): (r: seq<string>)
    ensures |r| >= 1
    ensures forall k :: 0 <= k < |r| ==> sep !in r[k]
    decreases |s|
  {
    if |s| == 0 then [""]
    else
      var rest := Split(s[1..], sep);
      if s[0] == sep then [""] + rest
      else [[s[0]] + rest[0]] + rest[1..]
  }

  /** Python's `sep.join(parts)` for a non-empty list of parts. */
  function Join(parts: seq<string>, sep: char): string
    requires |parts| >= 1
    decreases |parts|
  {
    if |parts| == 1 then parts[0] else parts[0] + [sep] + Join(parts[1..], sep)
  }

  /** Joining the pieces of a split gives back the original string. */
  lemma {:induction false} JoinSplit(s: string, sep: char)
    ensures Join(Split(s, sep), sep) == s
    decreases |s|
  {
    if |s| > 0 {
      var rest := Split(s[1..], sep);
      JoinSplit(s[1..], sep);
      if s[0] == sep {
        assert s == [sep] + s[1..];
      } else if |rest| == 1 {
        assert s == [s[0]] + s[1..];
      } else {
        assert ([[s[0]] + rest[0]] + rest[1..])[1..] == rest[1..];
        assert s == [s[0]] + s[1..];
      }
    }
  }

  /** Splitting a string whose head `a` holds no separator: `a` is glued to the
      first piece of the rest. */
  lemma {:induction false} SplitHead(a: string, t: string, sep: char)
    requires sep !in a
    ensures Split(a + t, sep) == [a + Split(t, sep)[0]] + Split(t, sep)[1..]
    decreases |a|
  {
    if |a| > 0 {
      assert (a + t)[1..] == a[1..] + t;
      assert (a + t)[0] == a[0] && a[0] != sep;
      assert forall x :: x in a[1..] ==> x in a;
      SplitHead(a[1..], t, sep);
      var rest := Split(a[1..] + t, sep);
      assert rest[0] == a[1..] + Split(t, sep)[0];
      assert [a[0]] + rest[0] == a + Split(t, sep)[0];
    } else {
      var r := Split(t, sep);
      assert a + t == t;
      assert a + r[0] == r[0];
      assert r == [r[0]] + r[1..];
    }
  }

  /** Splitting a join gives back the parts, when no part holds the separator. */
  lemma {:induction false} SplitJoin(parts: seq<string>, sep: char)
    requires |parts| >= 1
    requires forall k :: 0 <= k < |parts| ==> sep !in parts[k]
    ensures Split(Join(parts, sep), sep) == parts
    decreases |parts|
  {
    if |parts| == 1 {
      SplitHead(parts[0], "", sep);
      assert parts[0] + "" == parts[0];
    } else {
      var tail := Join(parts[1..], sep);
      SplitJoin(parts[1..], sep);
      assert Split([sep] + tail, sep) == [""] + Split(tail, sep) by {
        assert ([sep] + tail)[1..] == tail;
      }
      assert parts[0] + [sep] + tail == parts[0] + ([sep] + tail);
      SplitHead(parts[0], [sep] + tail, sep);
      assert parts[0] + "" == parts[0];
    }
  }

  /** The number of pieces is one more than the number of separators. */
  lemma {:induction false} SplitCount(s: string, sep: char)
    ensures |Split(s, sep)| == Occ(s, sep) + 1
    decreases |s|
  {
    if |s| > 0 {
      SplitCount(s[1..], sep);
    }
  }

  // ---------------------------------------------------------------------------
  // Searching: `in`, find, count

  /** Python's `p in s`. */
  predicate Contains(s: string, p: string) {
    exists i :: 0 <= i <= |s| && p <= s[i..]
  }

  /** `p` occurs at `i` and nowhere before. */
  predicate IsFirstOccurrence(s: string, p: string, i: nat) {
    i <= |s| && p <= s[i..] && forall j :: 0 <= j < i ==> !(p <= s[j..])
  }

  /** Python's `s.find(p)`: the first index where `p` occurs, or -1. */
  function Find(s: string, p: string): (r: int)
    requires |p| > 0
    ensures -1 <= r <= |s|
    ensures r == -1 <==> !Contains(s, p)
    ensures r >= 0 ==> IsFirstOccurrence(s, p, r)
    decreases |s|
  {
    if |s| < |p| then
      assert forall i :: 0 <= i <= |s| ==> !(p <= s[i..]);
      -1
    else if p <= s then
      assert s[0..] == s;
      0
    else
      var k := Find(s[1..], p);
      if k == -1 then
        AbsentShift(s, p);
        -1
      else
        FirstOccurrenceShift(s, p, k);
        k + 1
  }

  /** Past a non-matching head, `p` does not occur in `s` if it does not
      occur in the tail. */
  lemma {:induction false} AbsentShift(s: string, p: string)
    requires |s| > 0 && !(p <= s) && !Contains(s[1..], p)
    ensures !Contains(s, p)
  {
    forall i | 0 <= i <= |s| ensures !(p <= s[i..]) {
      if i == 0 {
        assert s[0..] == s;
      } else {
        assert s[i..] == s[1..][i - 1..];
      }
    }
  }

  /** Past a non-matching head, the first occurrence in the tail is one
      further on in `s`. */
  lemma {:induction false} FirstOccurrenceShift(s: string, p: string, k: nat)
    requires |s| > 0 && !(p <= s) && IsFirstOccurrence(s[1..], p, k)
    ensures IsFirstOccurrence(s, p, k + 1)
  {
    assert s[k + 1..] == s[1..][k..];
    forall j | 0 <= j < k + 1 ensures !(p <= s[j..]) {
      if j == 0 {
        assert s[0..] == s;
      } else {
        assert s[j..] == s[1..][j - 1..];
      }
    }
  }

  /** Python's `s.count(p)`: non-overlapping occurrences, scanning left to right. */
  function Count(s: string, p: string): nat
    requires |p| > 0
    decreases |s|
  {
    if |s| < |p| then 0
    else if p <= s then 1 + Count(s[|p|..], p)
    else Count(s[1..], p)
  }

  /** `count` is positive exactly when `in` holds. */
  lemma {:induction false} CountPositive(s: string, p: string)
    requires |p| > 0
    ensures Count(s, p) > 0 <==> Contains(s, p)
    decreases |s|
  {
    if |s| < |p| {
      assert forall i :: 0 <= i <= |s| ==> !(p <= s[i..]);
    } else if p <= s {
      assert s[0..] == s;
    } else {
      CountPositive(s[1..], p);
      assert forall i :: 1 <= i <= |s| ==> s[i..] == s[1..][i - 1..];
      if Contains(s[1..], p) {
        var i :| 0 <= i <= |s[1..]| && p <= s[1..][i..];
        assert p <= s[i + 1..];
      }
    }
  }

  // ---------------------------------------------------------------------------
  // replace

  /** Python's `s.replace(p, q)`: every non-overlapping occurrence, left to right. */
  function ReplaceAll(s: string, p: string, q: string): string
    requires |p| > 0
    decreases |s|
  {
    if |s| < |p| then s
    else if p <= s then q + ReplaceAll(s[|p|..], p, q)
    else [s[0]] + ReplaceAll(s[1..], p, q)
  }

  /** A pattern without the separator never straddles it: replacing in
      `a + c`, where `c` starts with the separator, replaces in each part. */
  lemma {:induction false} ReplaceAllAcross(a: string, c: string, p: string, q: string)
    requires |p| > 0 && |c| > 0 && c[0] !in p
    ensures ReplaceAll(a + c, p, q) == ReplaceAll(a, p, q) + ReplaceAll(c, p, q)
    decreases |a|
  {
    var s := a + c;
    if |a| == 0 {
      assert s == c;
    } else {
      assert s[|a|] == c[0];
      if |s| >= |p| && p <= s {
        assert |p| <= |a|;
        assert p <= a;
        assert s[|p|..] == a[|p|..] + c;
        ReplaceAllAcross(a[|p|..], c, p, q);
      } else {
        assert s[1..] == a[1..] + c;
        ReplaceAllAcross(a[1..], c, p, q);
        assert a == [a[0]] + a[1..];
        assert |a| >= |p| ==> !(p <= a);
      }
    }
  }

  /** A pattern that does not start with `c` is never found at a leading `c`. */
  lemma {:induction false} ReplaceAllAfterHead(c: char, x: string, p: string, q: string)
    requires |p| > 0 && c !in p
    ensures ReplaceAll([c] + x, p, q) == [c] + ReplaceAll(x, p, q)
  {
    var s := [c] + x;
    assert s[0] == c && s[1..] == x;
    assert |s| >= |p| ==> !(p <= s);
  }

  /** `replace(p, q)` applied to every piece of a list. */
  function ReplaceAllIn(parts: seq<string>, p: string, q: string): (r: seq<string>)
    requires |p| > 0
    ensures |r| == |parts|
    ensures forall i :: 0 <= i < |parts| ==> r[i] == ReplaceAll(parts[i], p, q)
  {
    seq(|parts|, i requires 0 <= i < |parts| => ReplaceAll(parts[i], p, q))
  }

  /** Replacing a pattern without the separator in a joined text replaces it
      in each piece. */
  lemma {:induction false} ReplaceAllJoin(parts: seq<string>, sep: char, p: string, q: string)
    requires |parts| >= 1 && |p| > 0 && sep !in p
    ensures ReplaceAll(Join(parts, sep), p, q) == Join(ReplaceAllIn(parts, p, q), sep)
    decreases |parts|
  {
    var out := ReplaceAllIn(parts, p, q);
    if |parts| > 1 {
      var rest := Join(parts[1..], sep);
      assert Join(parts, sep) == parts[0] + ([sep] + rest);
      ReplaceAllAcross(parts[0], [sep] + rest, p, q);
      ReplaceAllAfterHead(sep, rest, p, q);
      ReplaceAllJoin(parts[1..], sep, p, q);
      assert out[1..] == ReplaceAllIn(parts[1..], p, q);
    }
  }

  /** A pattern absent from `s` is absent from every suffix of `s`. */
  lemma {:induction false} AbsentFromSuffix(s: string, j: nat, p: string)
    requires j <= |s| && !Contains(s, p)
    ensures !Contains(s[j..], p)
  {
    forall i | 0 <= i <= |s[j..]|
      ensures !(p <= s[j..][i..])
    {
      assert s[j..][i..] == s[j + i..];
    }
  }

  /** A pattern found at the start and nowhere after it is replaced once, at
      the start. */
  lemma {:induction false} ReplaceAllOnlyAtHead(s: string, p: string, q: string)
    requires |p| > 0 && p <= s && !Contains(s[1..], p)
    ensures ReplaceAll(s, p, q) == q + s[|p|..]
  {
    assert s[1..][|p| - 1..] == s[|p|..];
    AbsentFromSuffix(s[1..], |p| - 1, p);
    ReplaceAllAbsent(s[|p|..], p, q);
  }

  /** A pattern holding a character the text lacks does not occur in it. */
  lemma {:induction false} MissingCharAbsent(s: string, p: string, c: char)
    requires c in p && c !in s
    ensures !Contains(s, p)
  {
    forall i | 0 <= i <= |s| ensures !(p <= s[i..]) {
      var j :| 0 <= j < |p| && p[j] == c;
      assert |p| <= |s[i..]| ==> s[i..][j] == s[i + j];
    }
  }

  /** Python's `s.replace(p, q, 1)`: only the first occurrence. */
  function ReplaceFirst(s: string, p: string, q: string): string
    requires |p| > 0
    decreases |s|
  {
    if |s| < |p| then s
    else if p <= s then q + s[|p|..]
    else [s[0]] + ReplaceFirst(s[1..], p, q)
  }

  /** Replacing a pattern that does not occur changes nothing. */
  lemma {:induction false} ReplaceAllAbsent(s: string, p: string, q: string)
    requires |p| > 0 && !Contains(s, p)
    ensures ReplaceAll(s, p, q) == s
    decreases |s|
  {
    if |s| >= |p| {
      assert s[0..] == s;
      assert forall i :: 1 <= i <= |s| ==> s[i..] == s[1..][i - 1..];
      ReplaceAllAbsent(s[1..], p, q);
    }
  }

  /** `replace(p, q, 1)` rewrites the first occurrence found by `find`, and only it. */
  lemma {:induction false} ReplaceFirstAtFind(s: string, p: string, q: string)
    requires |p| > 0
    ensures Find(s, p) == -1 ==> ReplaceFirst(s, p, q) == s
    ensures Find(s, p) >= 0 ==>
      ReplaceFirst(s, p, q) == s[..Find(s, p)] + q + s[Find(s, p) + |p|..]
    decreases |s|
  {
    if |s| < |p| {
    } else if p <= s {
      assert Find(s, p) == 0;
      assert s[..0] + q + s[|p|..] == q + s[|p|..];
    } else {
      var k := Find(s[1..], p);
      var tail := ReplaceFirst(s[1..], p, q);
      assert Find(s, p) == (if k == -1 then -1 else k + 1);
      assert ReplaceFirst(s, p, q) == [s[0]] + tail;
      ReplaceFirstAtFind(s[1..], p, q);
      if k >= 0 {
        ReplaceFirstShift(s, p, q, k);
        assert ReplaceFirst(s, p, q) == s[..k + 1] + q + s[k + 1 + |p|..];
      } else {
        assert tail == s[1..];
        assert s == [s[0]] + s[1..];
      }
    }
  }

  lemma {:induction false} ReplaceFirstShift(s: string, p: string, q: string, k: nat)
    requires |s| > 0 && k + |p| <= |s| - 1
    ensures [s[0]] + (s[1..][..k] + q + s[1..][k + |p|..]) == s[..k + 1] + q + s[k + 1 + |p|..]
  {
    assert s[..k + 1] == [s[0]] + s[1..][..k];
    assert s[k + 1 + |p|..] == s[1..][k + |p|..];
  }

  /** Replacing never adds or removes a character `c` that neither pattern holds. */
  lemma {:induction false} ReplaceAllKeepsOcc(s: string, p: string, q: string, c: char)
    requires |p| > 0 && c !in p && c !in q
    ensures Occ(ReplaceAll(s, p, q), c) == Occ(s, c)
    decreases |s|
  {
    if |s| >= |p| {
      if p <= s {
        ReplaceAllKeepsOcc(s[|p|..], p, q, c);
        OccAppend(q, ReplaceAll(s[|p|..], p, q), c);
        OccAbsent(q, c);
        assert s == p + s[|p|..];
        OccAppend(p, s[|p|..], c);
        OccAbsent(p, c);
      } else {
        ReplaceAllKeepsOcc(s[1..], p, q, c);
        OccAppend([s[0]], ReplaceAll(s[1..], p, q), c);
        assert s == [s[0]] + s[1..];
        OccAppend([s[0]], s[1..], c);
      }
    }
  }

  /** `replace(p, q, 1)` never adds or removes a character neither pattern holds. */
  lemma {:induction false} ReplaceFirstKeepsOcc(s: string, p: string, q: string, c: char)
    requires |p| > 0 && c !in p && c !in q
    ensures Occ(ReplaceFirst(s, p, q), c) == Occ(s, c)
    decreases |s|
  {
    if |s| >= |p| {
      if p <= s {
        OccAppend(q, s[|p|..], c);
        OccAbsent(q, c);
        assert s == p + s[|p|..];
        OccAppend(p, s[|p|..], c);
        OccAbsent(p, c);
      } else {
        ReplaceFirstKeepsOcc(s[1..], p, q, c);
        OccAppend([s[0]], ReplaceFirst(s[1..], p, q), c);
        assert s == [s[0]] + s[1..];
        OccAppend([s[0]], s[1..], c);
      }
    }
  }
}

=== FILE: safeguard.dfy ===
/**
 * `safeguard.py`: a second pass that lets the model spot-correct single
 * utterances through a `correct_speaker_role` tool. The model's replies are
 * the `responses` argument, one per round; the prompts and the tool schema
 * are not modelled.
 */
module Safeguard {
  import opened Wrappers
  import opened PyStr
  import opened Substitution
  import opened Log
  import opened Oracle

  /** At most this many rounds are run. */
  const MaxIterations: nat := 3

  /** At most this many words of a prefix, and of an utterance, are compared. */
  const MaxWords: nat := 10

  /** The only tool the program acts on. */
  const ToolName: string := "correct_speaker_role"

  // ---------------------------------------------------------------------------
  // Locating an utterance

  /** The words compared when matching a prefix: the text stripped,
      lower-cased, split on whitespace, and cut to the first ten. */
  function Normalised(s: string): (r: seq<string>)
    ensures |r| <= MaxWords
  {
    Take(Words(Lower(Strip(s))), MaxWords)
  }

  /** The stripped line starts with `role:` and its first words after the
      label begin with the prefix words `pw`. */
  predicate Qualifies(line: string, role: string, pw: seq<string>) {
    var s := Strip(line);
    && |s| > 0
    && Marker(role) <= s
    && Take(Normalised(s[|Marker(role)|..]), |pw|) == pw
  }

  /** Comparing the first `|pw|` words with `pw` is asking whether `pw` is a
      prefix of the words. */
  lemma {:induction false} MatchIsPrefix(tw: seq<string>, pw: seq<string>)
    ensures Take(tw, |pw|) == pw <==> pw <= tw
  {
  }

  /** A prefix with more words than the utterance's first ten never matches. */
  lemma {:induction false} LongPrefixNeverMatches(line: string, role: string, prefix: string)
    requires Marker(role) <= Strip(line)
    requires |Normalised(prefix)| > |Normalised(Strip(line)[|Marker(role)|..])|
    ensures !Qualifies(line, role, Normalised(prefix))
  {
  }

  /** A line found in the transcript: its index and its stripped text. */
  datatype Found = Found(index: nat, line: string)

  /** Whether each line qualifies, in order. */
  function Verdicts(lines: seq<string>, role: string, pw: seq<string>): (v: seq<bool>)
    ensures |v| == |lines|
    decreases |lines|
  {
    if |lines| == 0 then [] else [Qualifies(lines[0], role, pw)] + Verdicts(lines[1..], role, pw)
  }

  /** The verdict at `j` is whether line `j` qualifies. */
  lemma {:induction false} VerdictAt(lines: seq<string>, role: string, pw: seq<string>, j: nat)
    requires j < |lines|
    ensures Verdicts(lines, role, pw)[j] == Qualifies(lines[j], role, pw)
    decreases |lines|
  {
    if j > 0 {
      VerdictAt(lines[1..], role, pw, j - 1);
    }
  }

  /** The loop over `enumerate(lines)` from index `i` on: the first index
      whose verdict is positive, or none. */
  function FirstFrom(v: seq<bool>, i: nat): (r: Option<nat>)
    requires i <= |v|
    ensures r.Some? ==> i <= r.value < |v|
    decreases |v| - i
  {
    if i == |v| then None
    else if v[i] then Some(i)
    else FirstFrom(v, i + 1)
  }

  /** The search stops at the first positive verdict, and finds none only
      when every verdict from `i` on is negative. */
  lemma {:induction false} FirstFromFirst(v: seq<bool>, i: nat)
    requires i <= |v|
    ensures var r := FirstFrom(v, i);
      && (r.Some? ==> v[r.value])
      && (r.Some? ==> forall j :: i <= j < r.value ==> !v[j])
      && (r.None? ==> forall j :: i <= j < |v| ==> !v[j])
    decreases |v| - i
  {
    if i < |v| && !v[i] {
      FirstFromFirst(v, i + 1);
    }
  }

  /** The index `_find_utterance_by_prefix` reports. */
  function LineOf(transcript: string, role: string, prefix: string): (r: Option<nat>)
    ensures r.Some? ==> r.value < |Split(transcript, '\n')|
  {
    FirstFrom(Verdicts(Split(transcript, '\n'), role, Normalised(prefix)), 0)
  }

  /** `_find_utterance_by_prefix`: the index of the line found, with its
      stripped text. */
  function FindUtteranceByPrefix(transcript: string, role: string, prefix: string): (r: Option<Found>)
    ensures r.Some? ==> r.value.index < |Split(transcript, '\n')|
    ensures r.Some? ==> r.value.line == Strip(Split(transcript, '\n')[r.value.index])
  {
    match LineOf(transcript, role, prefix)
    case None => None
    case Some(i) => Some(Found(i, Strip(Split(transcript, '\n')[i])))
  }

  /** The line found is the first, by index, whose stripped text starts with
      `role:` and whose first words after the label begin with the prefix's
      words; that stripped text occurs in the line; none is found only when
      no line qualifies. Only the first ten words on either side take part. */
  lemma {:induction false} FindsFirstQualifying(transcript: string, role: string, prefix: string)
    ensures var lines := Split(transcript, '\n');
      var r := FindUtteranceByPrefix(transcript, role, prefix);
      && (r.None? ==> forall j :: 0 <= j < |lines| ==> !Qualifies(lines[j], role, Normalised(prefix)))
      && (r.Some? ==>
            && r.value.index < |lines|
            && Qualifies(lines[r.value.index], role, Normalised(prefix))
            && r.value.line == Strip(lines[r.value.index])
            && Marker(role) <= r.value.line
            && Contains(lines[r.value.index], Marker(role))
            && forall j :: 0 <= j < r.value.index ==> !Qualifies(lines[j], role, Normalised(prefix)))
  {
    var lines := Split(transcript, '\n');
    var pw := Normalised(prefix);
    assert FindUtteranceByPrefix(transcript, role, prefix).None? <==> LineOf(transcript, role, prefix).None?;
    FirstFromFirst(Verdicts(lines, role, pw), 0);
    forall j | 0 <= j < |lines|
      ensures Verdicts(lines, role, pw)[j] == Qualifies(lines[j], role, pw)
    {
      VerdictAt(lines, role, pw, j);
    }
    var r := FindUtteranceByPrefix(transcript, role, prefix);
    if r.Some? {
      StrippedPrefixOccurs(lines[r.value.index], Marker(role));
    }
  }

  /** A text that starts the stripped line occurs in the line itself. */
  lemma {:induction false} StrippedPrefixOccurs(line: string, p: string)
    requires p <= Strip(line)
    ensures Contains(line, p)
  {
    var s := Strip(line);
    var a := StripStart(line);
    assert p <= line[a..];
  }

  /** A blank prefix matches the first line whose stripped text starts with
      `role:`, whatever follows the label. */
  lemma {:induction false} BlankPrefixMatchesFirstRoleLine(transcript: string, role: string, prefix: string)
    requires AllSpace(prefix)
    ensures var lines := Split(transcript, '\n');
      var r := FindUtteranceByPrefix(transcript, role, prefix);
      && (r.None? ==> forall j :: 0 <= j < |lines| ==> !(Marker(role) <= Strip(lines[j])))
      && (r.Some? ==> Marker(role) <= Strip(lines[r.value.index]))
      && (r.Some? ==> forall j :: 0 <= j < r.value.index ==> !(Marker(role) <= Strip(lines[j])))
  {
    FindsFirstQualifying(transcript, role, prefix);
    StripAllSpace(prefix);
    assert Lower("") == "";
    assert Normalised(prefix) == [];
    var lines := Split(transcript, '\n');
    forall j | 0 <= j < |lines|
      ensures Qualifies(lines[j], role, []) <==> Marker(role) <= Strip(lines[j])
    {
    }
  }

  /** Words of the prefix beyond the tenth are never looked at. */
  lemma {:induction false} OnlyTenWordsCount(transcript: string, role: string, p1: string, p2: string)
    requires Take(Words(Lower(Strip(p1))), MaxWords) == Take(Words(Lower(Strip(p2))), MaxWords)
    ensures FindUtteranceByPrefix(transcript, role, p1) == FindUtteranceByPrefix(transcript, role, p2)
  {
  }

  // ---------------------------------------------------------------------------
  // Correcting one line

  /** `line.replace(oldRole + ":", newRole + ":", 1)`: the first occurrence
      of `oldRole:`, at the position `find` reports, becomes `newRole:`; the
      line is unchanged when there is none. */
  function RewriteLine(line: string, oldRole: string, newRole: string): (r: string)
    ensures var p := Marker(oldRole);
      && (Find(line, p) == -1 ==> r == line)
      && (Find(line, p) >= 0 ==> r == line[..Find(line, p)] + Marker(newRole) + line[Find(line, p) + |p|..])
    ensures '\n' !in line && '\n' !in newRole ==> '\n' !in r
  {
    RewrittenLine(line, Marker(oldRole), newRole);
    ReplaceFirst(line, Marker(oldRole), Marker(newRole))
  }

  lemma {:induction false} RewrittenLine(before: string, p: string, newRole: string)
    requires |p| > 0
    ensures var after := ReplaceFirst(before, p, Marker(newRole));
      && (Find(before, p) == -1 ==> after == before)
      && (Find(before, p) >= 0 ==> after == before[..Find(before, p)] + Marker(newRole) + before[Find(before, p) + |p|..])
      && ('\n' !in before && '\n' !in newRole ==> '\n' !in after)
  {
    var q := Marker(newRole);
    var f := Find(before, p);
    ReplaceFirstAtFind(before, p, q);
    if '\n' !in before && '\n' !in newRole {
      MarkerNewline(newRole);
      if f >= 0 {
        assert '\n' !in before[..f] && '\n' !in before[f + |p|..];
      }
    }
  }

  /** `_correct_single_utterance`: the line at `lineIndex` is rewritten and
      one `utterance_corrected` entry records it, before and after; an index
      past the last line changes nothing and logs a `correction_error`.
      `CorrectionRewritesOneLine` states what becomes of the other lines. */
  function CorrectSingleUtterance(transcript: string, lineIndex: nat, oldRole: string, newRole: string,
                                  log: seq<LogEntry>): (r: Logged)
    ensures var lines := Split(transcript, '\n');
      lineIndex >= |lines| ==> r == Logged(transcript, log + [CorrectionError(lineIndex)])
    ensures var lines := Split(transcript, '\n');
      lineIndex < |lines| ==>
        r.log == log + [UtteranceCorrected(lineIndex, oldRole, newRole, lines[lineIndex],
                                           RewriteLine(lines[lineIndex], oldRole, newRole))]
  {
    var lines := Split(transcript, '\n');
    if lineIndex >= |lines| then
      Logged(transcript, log + [CorrectionError(lineIndex)])
    else
      var after := RewriteLine(lines[lineIndex], oldRole, newRole);
      Logged(Join(lines[lineIndex := after], '\n'),
             log + [UtteranceCorrected(lineIndex, oldRole, newRole, lines[lineIndex], after)])
  }

  /** A correction in range rewrites only its own line: the result is the
      transcript's lines, joined again, with that one line replaced by its
      rewrite; with a new role free of line breaks splitting gives back
      exactly those lines; and a line without `oldRole:` leaves the
      transcript as it was. */
  lemma {:induction false} CorrectionRewritesOneLine(transcript: string, lineIndex: nat, oldRole: string,
                                                     newRole: string, log: seq<LogEntry>)
    requires lineIndex < |Split(transcript, '\n')|
    ensures var lines := Split(transcript, '\n');
      var after := RewriteLine(lines[lineIndex], oldRole, newRole);
      var r := CorrectSingleUtterance(transcript, lineIndex, oldRole, newRole, log);
      && r.text == Join(lines[lineIndex := after], '\n')
      && (after == lines[lineIndex] ==> r.text == transcript)
      && ('\n' !in newRole ==> Split(r.text, '\n') == lines[lineIndex := after])
  {
    var lines := Split(transcript, '\n');
    var after := RewriteLine(lines[lineIndex], oldRole, newRole);
    JoinSplit(transcript, '\n');
    JoinedLinesSplit(lines, lineIndex, after);
    assert after == lines[lineIndex] ==> lines[lineIndex := after] == lines;
  }

  /** Replacing one line by another newline-free line keeps the split. */
  lemma {:induction false} JoinedLinesSplit(lines: seq<string>, i: nat, line: string)
    requires i < |lines|
    requires forall k :: 0 <= k < |lines| ==> '\n' !in lines[k]
    ensures '\n' !in line ==> Split(Join(lines[i := line], '\n'), '\n') == lines[i := line]
  {
    if '\n' !in line {
      SplitJoin(lines[i := line], '\n');
    }
  }

  // ---------------------------------------------------------------------------
  // The correction rounds

  /** How an argument is printed into `role + ":"`: a missing one prints as `None`. */
  function FormatArg(x: Option<string>): string {
    match x
    case Some(v) => v
    case None => "None"
  }

  /** The loop's working state: the current transcript, the corrections made
      so far, and the log. */
  datatype State = State(text: string, corrections: seq<Correction>, log: seq<LogEntry>)

  /** The state after some tool calls, and whether one of them raised. */
  datatype Progress = Progress(state: State, raised: bool)

  /** `b` continues `a`: log and corrections only grow, and without a new
      correction the transcript is untouched. */
  predicate Grows(a: State, b: State) {
    && a.log <= b.log
    && a.corrections <= b.corrections
    && (|b.corrections| == |a.corrections| ==> b.text == a.text)
  }

  /** One `utterance_corrected` entry was logged per correction recorded,
      and no `correction_error`. */
  predicate CorrectionsLogged(a: State, b: State) {
    && CountStep(b.log, UtteranceCorrectedStep) - CountStep(a.log, UtteranceCorrectedStep) ==
         |b.corrections| - |a.corrections|
    && CountStep(b.log, CorrectionErrorStep) == CountStep(a.log, CorrectionErrorStep)
  }

  /** How the loop looks an utterance up in the current transcript, given
      the printed role and the prefix. The program uses
      `FindUtteranceByPrefix`; the rounds are stated for any such function,
      so that their proofs do not depend on how the search works. */
  type Finder = (string, string, string) -> Option<Found>

  /** A finder that only reports lines the transcript has. */
  ghost predicate InRange(find: Finder) {
    forall transcript, role, prefix :: find(transcript, role, prefix).Some? ==>
      find(transcript, role, prefix).value.index < |Split(transcript, '\n')|
  }

  /** The steps a tool call may log: its own `tool_call`, then
      `utterance_not_found`, `utterance_corrected` or `correction_error`. */
  predicate IsCallStep(step: Step) {
    || step == ToolCallStep || step == UtteranceNotFoundStep
    || step == UtteranceCorrectedStep || step == CorrectionErrorStep
  }

  /** A tool call whose correct role, as printed, has no line break. */
  predicate KeepsLines(call: ToolCall) {
    call.args.Fields? ==> '\n' !in FormatArg(call.args.correctRole)
  }

  /** The calls that raise: arguments that are not valid JSON, and a
      `correct_speaker_role` call without a prefix (the prefix is stripped). */
  predicate Raises(call: ToolCall) {
    call.args.Undecodable? || (call.name == ToolName && call.args.utterancePrefix.None?)
  }

  /** One tool call. The arguments are decoded first, then the call is
      logged; another tool's name is logged and ignored; the utterance is
      looked up by its printed role and prefix and, when found, corrected and
      the correction recorded, and otherwise `utterance_not_found` is logged. */
  function ProcessCall(st: State, find: Finder, call: ToolCall): (r: Progress)
    ensures r.raised <==> Raises(call)
    ensures r.state.log == st.log + CallEntries(st.text, find, call)
    ensures |r.state.corrections| == |st.corrections| + (if Corrects(st.text, find, call) then 1 else 0)
    ensures st.corrections <= r.state.corrections
    ensures !Corrects(st.text, find, call) ==> r.state.text == st.text
    ensures Corrects(st.text, find, call) ==>
      r.state.text == CorrectSingleUtterance(st.text,
                                             find(st.text, FormatArg(call.args.currentRole), call.args.utterancePrefix.value).value.index,
                                             FormatArg(call.args.currentRole), FormatArg(call.args.correctRole), st.log).text
    ensures r.state.text == CallText(st.text, find, call)
    ensures r.state.corrections == st.corrections + CallCorrection(st.text, find, call)
  {
    match call.args
    case Undecodable => Progress(st, true)
    case Fields(current, prefix, correct, reason) =>
      var st1 := Note(st, ToolCallMade(call.name, call.args));
      if call.name != ToolName then
        Progress(st1, false)
      else
        match prefix
        case None => Progress(st1, true)
        case Some(p) => Lookup(st1, find, current, p, correct, reason)
  }

  /** The call asks for a correction and the utterance is found. */
  predicate Corrects(text: string, find: Finder, call: ToolCall) {
    && call.args.Fields? && call.name == ToolName && call.args.utterancePrefix.Some?
    && find(text, FormatArg(call.args.currentRole), call.args.utterancePrefix.value).Some?
  }

  /** The entries a call logs: none when its arguments cannot be decoded,
      otherwise its `tool_call` entry, followed by the lookup's entry when it
      is a `correct_speaker_role` call with a prefix. */
  function CallEntries(text: string, find: Finder, call: ToolCall): seq<LogEntry> {
    match call.args
    case Undecodable => []
    case Fields(current, prefix, correct, _) =>
      [ToolCallMade(call.name, call.args)] +
      (if call.name == ToolName && prefix.Some? then [LookupEntry(text, find, current, prefix.value, correct)] else [])
  }

  /** A decoded call logs one `tool_call` entry; with a finder in range, one
      `utterance_corrected` entry exactly when it corrects, and never a
      `correction_error`; and no other step. */
  lemma {:induction false} CallEntriesCount(text: string, find: Finder, call: ToolCall, step: Step)
    ensures step == ToolCallStep ==>
      CountStep(CallEntries(text, find, call), step) == (if call.args.Undecodable? then 0 else 1)
    ensures InRange(find) && step == UtteranceCorrectedStep ==>
      CountStep(CallEntries(text, find, call), step) == (if Corrects(text, find, call) then 1 else 0)
    ensures InRange(find) && step == CorrectionErrorStep ==> CountStep(CallEntries(text, find, call), step) == 0
    ensures !IsCallStep(step) ==> CountStep(CallEntries(text, find, call), step) == 0
  {
    match call.args
    case Undecodable =>
      assert Kinds([]) == [];
    case Fields(current, prefix, correct, _) =>
      var e := ToolCallMade(call.name, call.args);
      CountStepOne(e, step);
      if call.name == ToolName && prefix.Some? {
        var l := LookupEntry(text, find, current, prefix.value, correct);
        CountStepAppend([e], [l], step);
        CountStepOne(l, step);
      } else {
        assert CallEntries(text, find, call) == [e];
      }
  }

  /** A `correct_speaker_role` call with a prefix: when the utterance is not
      found, only the call and `utterance_not_found` are logged and nothing
      else changes; when it is found, exactly one correction is recorded,
      with the call's own arguments, and the transcript becomes its lines
      with the found one rewritten (an index past the last line leaves it
      as it was). */
  lemma {:induction false} CallOutcome(st: State, find: Finder, call: ToolCall)
    requires call.name == ToolName && call.args.Fields? && call.args.utterancePrefix.Some?
    ensures var r := ProcessCall(st, find, call);
      var found := find(st.text, FormatArg(call.args.currentRole), call.args.utterancePrefix.value);
      && (found.None? ==>
            r.state == st.(log := st.log + [ToolCallMade(call.name, call.args),
                                            UtteranceNotFound(call.args.currentRole, call.args.utterancePrefix.value)]))
      && (found.Some? ==>
            && r.state.corrections == st.corrections + [Correction(call.args.currentRole, call.args.correctRole, call.args.reason)]
            && r.state.log == st.log + [ToolCallMade(call.name, call.args),
                                        CorrectionEntry(st.text, found.value.index, call.args.currentRole, call.args.correctRole)])
      && (found.Some? && found.value.index >= |Split(st.text, '\n')| ==> r.state.text == st.text)
      && (found.Some? && found.value.index < |Split(st.text, '\n')| ==>
            var lines := Split(st.text, '\n');
            var i := found.value.index;
            var after := RewriteLine(lines[i], FormatArg(call.args.currentRole), FormatArg(call.args.correctRole));
            && r.state.text == Join(lines[i := after], '\n')
            && ('\n' !in FormatArg(call.args.correctRole) ==> Split(r.state.text, '\n') == lines[i := after]))
  {
    var st1 := Note(st, ToolCallMade(call.name, call.args));
    var found := find(st.text, FormatArg(call.args.currentRole), call.args.utterancePrefix.value);
    if found.Some? && found.value.index < |Split(st.text, '\n')| {
      CorrectionRewritesOneLine(st.text, found.value.index, FormatArg(call.args.currentRole),
                                FormatArg(call.args.correctRole), st.log);
    }
    assert st1.log + [UtteranceNotFound(call.args.currentRole, call.args.utterancePrefix.value)] ==
      st.log + [ToolCallMade(call.name, call.args), UtteranceNotFound(call.args.currentRole, call.args.utterancePrefix.value)];
  }

  /** The one entry a lookup logs: `utterance_not_found`, or the entry of
      the correction of the line found. */
  function LookupEntry(text: string, find: Finder, current: Option<string>, prefix: string,
                       correct: Option<string>): (e: LogEntry)
    ensures e.Kind() == UtteranceNotFoundStep <==> find(text, FormatArg(current), prefix).None?
    ensures e.Kind() in {UtteranceNotFoundStep, UtteranceCorrectedStep, CorrectionErrorStep}
    ensures InRange(find) ==> e.Kind() != CorrectionErrorStep
  {
    match find(text, FormatArg(current), prefix)
    case None => UtteranceNotFound(current, prefix)
    case Some(f) => CorrectionEntry(text, f.index, current, correct)
  }

  /** The call's own part: look the utterance up, then correct it or log
      that it was not found. Exactly one entry is logged, and one correction
      recorded exactly when the utterance is found. */
  function Lookup(st: State, find: Finder, current: Option<string>, prefix: string, correct: Option<string>,
                  reason: Option<string>): (r: Progress)
    ensures !r.raised
    ensures r.state.log == st.log + [LookupEntry(st.text, find, current, prefix, correct)]
    ensures find(st.text, FormatArg(current), prefix).None? ==> r.state.text == st.text && r.state.corrections == st.corrections
    ensures find(st.text, FormatArg(current), prefix).Some? ==>
      && r.state.corrections == st.corrections + [Correction(current, correct, reason)]
      && r.state.text == CorrectSingleUtterance(st.text, find(st.text, FormatArg(current), prefix).value.index,
                                                FormatArg(current), FormatArg(correct), st.log).text
  {
    match find(st.text, FormatArg(current), prefix)
    case None => Progress(Note(st, UtteranceNotFound(current, prefix)), false)
    case Some(f) => Corrected(st, f.index, current, correct, reason)
  }

  /** Appending a tool-call entry other than a correction. */
  function Note(st: State, e: LogEntry): (r: State)
    requires e.ToolCallMade? || e.UtteranceNotFound?
    ensures r.text == st.text && r.corrections == st.corrections && r.log == st.log + [e]
  {
    st.(log := st.log + [e])
  }

  /** The entry `_correct_single_utterance` logs for line `index`: the line
      before and after its rewrite, or `correction_error` when the transcript
      has no such line. */
  function CorrectionEntry(transcript: string, index: nat, current: Option<string>, correct: Option<string>): (e: LogEntry)
    ensures e.UtteranceCorrected? <==> index < |Split(transcript, '\n')|
    ensures !e.UtteranceCorrected? ==> e == CorrectionError(index)
  {
    var lines := Split(transcript, '\n');
    if index < |lines| then
      UtteranceCorrected(index, FormatArg(current), FormatArg(correct), lines[index],
                         RewriteLine(lines[index], FormatArg(current), FormatArg(correct)))
    else
      CorrectionError(index)
  }

  /** The line at `index` is corrected and the correction recorded, even
      when the line turns out not to exist. */
  function Corrected(st: State, index: nat, current: Option<string>,
                     correct: Option<string>, reason: Option<string>): (r: Progress)
    ensures !r.raised
    ensures r.state.log == st.log + [CorrectionEntry(st.text, index, current, correct)]
    ensures r.state.corrections == st.corrections + [Correction(current, correct, reason)]
    ensures r.state.text == CorrectSingleUtterance(st.text, index, FormatArg(current), FormatArg(correct), st.log).text
  {
    var fixed := CorrectSingleUtterance(st.text, index, FormatArg(current), FormatArg(correct), st.log);
    Progress(State(fixed.text, st.corrections + [Correction(current, correct, reason)], fixed.log), false)
  }

  /** Some call of the list raises. */
  predicate SomeRaises(calls: seq<ToolCall>)
    decreases |calls|
  {
    |calls| > 0 && (Raises(calls[0]) || SomeRaises(calls[1..]))
  }

  /** `SomeRaises` holds exactly when some call, at some position, raises. */
  lemma {:induction false} SomeRaisesAt(calls: seq<ToolCall>)
    ensures SomeRaises(calls) <==> exists i :: 0 <= i < |calls| && Raises(calls[i])
    decreases |calls|
  {
    if |calls| > 0 {
      SomeRaisesAt(calls[1..]);
      assert forall i :: 0 <= i < |calls[1..]| ==> calls[1..][i] == calls[i + 1];
      if SomeRaises(calls[1..]) && !Raises(calls[0]) {
        var i :| 0 <= i < |calls[1..]| && Raises(calls[1..][i]);
        assert Raises(calls[i + 1]);
      }
    }
  }

  /** The transcript a call leaves behind, stated without the loop's state:
      a correction whose utterance is found makes it what
      `_correct_single_utterance` returns for the line found and the call's
      two roles; every other call leaves the text as it was. */
  function CallText(text: string, find: Finder, call: ToolCall): string {
    if Corrects(text, find, call) then
      CorrectSingleUtterance(text, find(text, FormatArg(call.args.currentRole), call.args.utterancePrefix.value).value.index,
                             FormatArg(call.args.currentRole), FormatArg(call.args.correctRole), []).text
    else text
  }

  /** The correction a call records: one, with the call's roles and reason,
      when its utterance is found, and none otherwise. */
  function CallCorrection(text: string, find: Finder, call: ToolCall): seq<Correction> {
    if Corrects(text, find, call) then [Correction(call.args.currentRole, call.args.correctRole, call.args.reason)]
    else []
  }

  /** The transcript after the calls, each applied to the text the calls
      before it left. */
  function Apply(text: string, find: Finder, calls: seq<ToolCall>): string
    decreases |calls|
  {
    if |calls| == 0 then text else Apply(CallText(text, find, calls[0]), find, calls[1..])
  }

  /** The corrections the calls record, in order, each call looking its
      utterance up in the text the calls before it left. */
  function Made(text: string, find: Finder, calls: seq<ToolCall>): seq<Correction>
    decreases |calls|
  {
    if |calls| == 0 then []
    else CallCorrection(text, find, calls[0]) + Made(CallText(text, find, calls[0]), find, calls[1..])
  }

  /** The position of the first call that raises, or the number of calls
      when none does: the calls before it are the ones carried out. */
  function FirstRaise(calls: seq<ToolCall>): (k: nat)
    ensures k <= |calls|
    ensures k < |calls| <==> SomeRaises(calls)
    ensures k < |calls| ==> Raises(calls[k])
    ensures forall j :: 0 <= j < k ==> !Raises(calls[j])
    decreases |calls|
  {
    if |calls| == 0 || Raises(calls[0]) then 0 else 1 + FirstRaise(calls[1..])
  }

  /** Applying two runs of calls is applying the first, then the second,
      and the corrections of the two are recorded one after the other. */
  lemma {:induction false} ApplyAppend(text: string, find: Finder, a: seq<ToolCall>, b: seq<ToolCall>)
    ensures Apply(text, find, a + b) == Apply(Apply(text, find, a), find, b)
    ensures Made(text, find, a + b) == Made(text, find, a) + Made(Apply(text, find, a), find, b)
    decreases |a|
  {
    if |a| == 0 {
      assert a + b == b;
    } else {
      assert (a + b)[0] == a[0] && (a + b)[1..] == a[1..] + b;
      ApplyAppend(CallText(text, find, a[0]), find, a[1..], b);
    }
  }

  /** The tool calls of one reply, in order, stopping at the first that
      raises. `ProcessCallsApplies` states the transcript and corrections
      they leave. */
  function ProcessCalls(st: State, find: Finder, calls: seq<ToolCall>): (r: Progress)
    ensures r.raised <==> SomeRaises(calls)
    ensures Grows(st, r.state)
    ensures |r.state.corrections| <= |st.corrections| + |calls|
    decreases |calls|
  {
    if |calls| == 0 then Progress(st, false)
    else
      var p := ProcessCall(st, find, calls[0]);
      if p.raised then p
      else ProcessCalls(p.state, find, calls[1..])
  }

  /** The calls leave the transcript with every call before the first that
      raises applied in order, and record exactly those calls' corrections;
      the raising call and those after it change nothing. */
  lemma {:induction false} ProcessCallsApplies(st: State, find: Finder, calls: seq<ToolCall>)
    ensures var r := ProcessCalls(st, find, calls);
      var done := calls[..FirstRaise(calls)];
      r.state.text == Apply(st.text, find, done) && r.state.corrections == st.corrections + Made(st.text, find, done)
    decreases |calls|
  {
    if |calls| == 0 || Raises(calls[0]) {
      FoldNone(st.text, find, calls);
    } else {
      FoldStep(st.text, find, calls);
      ProcessCallsApplies(ProcessCall(st, find, calls[0]).state, find, calls[1..]);
    }
  }

  /** With no call before the first raise, nothing is applied. */
  lemma {:induction false} FoldNone(text: string, find: Finder, calls: seq<ToolCall>)
    requires |calls| == 0 || Raises(calls[0])
    ensures Apply(text, find, calls[..FirstRaise(calls)]) == text
    ensures Made(text, find, calls[..FirstRaise(calls)]) == []
  {
    assert calls[..FirstRaise(calls)] == [];
  }

  /** A first call that does not raise is applied first, and the rest of
      the calls up to the first raise after it. */
  lemma {:induction false} FoldStep(text: string, find: Finder, calls: seq<ToolCall>)
    requires |calls| > 0 && !Raises(calls[0])
    ensures var rest := calls[1..][..FirstRaise(calls[1..])];
      && Apply(text, find, calls[..FirstRaise(calls)]) == Apply(CallText(text, find, calls[0]), find, rest)
      && Made(text, find, calls[..FirstRaise(calls)]) ==
           CallCorrection(text, find, calls[0]) + Made(CallText(text, find, calls[0]), find, rest)
  {
    var done := calls[..FirstRaise(calls)];
    assert |done| > 0 && done[0] == calls[0];
    assert done[1..] == calls[1..][..FirstRaise(calls[1..])];
  }

  /** Each call that is decoded logs exactly one `tool_call` entry. */
  lemma {:induction false} ProcessCallToolCalls(st: State, find: Finder, call: ToolCall)
    ensures var r := ProcessCall(st, find, call);
      CountStep(r.state.log, ToolCallStep) == CountStep(st.log, ToolCallStep) + (if call.args.Undecodable? then 0 else 1)
  {
    CountStepAppend(st.log, CallEntries(st.text, find, call), ToolCallStep);
    CallEntriesCount(st.text, find, call, ToolCallStep);
  }

  /** With a finder in range, each call records one `utterance_corrected`
      entry per correction and no `correction_error`. */
  lemma {:induction false} ProcessCallCorrectionsLogged(st: State, find: Finder, call: ToolCall)
    requires InRange(find)
    ensures CorrectionsLogged(st, ProcessCall(st, find, call).state)
  {
    CountStepAppend(st.log, CallEntries(st.text, find, call), UtteranceCorrectedStep);
    CountStepAppend(st.log, CallEntries(st.text, find, call), CorrectionErrorStep);
    CallEntriesCount(st.text, find, call, UtteranceCorrectedStep);
    CallEntriesCount(st.text, find, call, CorrectionErrorStep);
  }

  /** A call logs no step other than its own. */
  lemma {:induction false} ProcessCallOtherSteps(st: State, find: Finder, call: ToolCall, step: Step)
    requires !IsCallStep(step)
    ensures CountStep(ProcessCall(st, find, call).state.log, step) == CountStep(st.log, step)
  {
    CountStepAppend(st.log, CallEntries(st.text, find, call), step);
    CallEntriesCount(st.text, find, call, step);
  }

  /** Without a raise, every call logs one `tool_call` entry. */
  lemma {:induction false} ProcessCallsToolCalls(st: State, find: Finder, calls: seq<ToolCall>)
    ensures var r := ProcessCalls(st, find, calls);
      !r.raised ==> CountStep(r.state.log, ToolCallStep) == CountStep(st.log, ToolCallStep) + |calls|
    decreases |calls|
  {
    if |calls| > 0 {
      ProcessCallToolCalls(st, find, calls[0]);
      var p := ProcessCall(st, find, calls[0]);
      if !p.raised {
        ProcessCallsToolCalls(p.state, find, calls[1..]);
      }
    }
  }

  /** With a finder in range, the calls record one `utterance_corrected`
      entry per correction and no `correction_error`. */
  lemma {:induction false} ProcessCallsCorrectionsLogged(st: State, find: Finder, calls: seq<ToolCall>)
    requires InRange(find)
    ensures CorrectionsLogged(st, ProcessCalls(st, find, calls).state)
    decreases |calls|
  {
    if |calls| > 0 {
      ProcessCallCorrectionsLogged(st, find, calls[0]);
      var p := ProcessCall(st, find, calls[0]);
      if !p.raised {
        ProcessCallsCorrectionsLogged(p.state, find, calls[1..]);
      }
    }
  }

  /** The calls log no step other than their own. */
  lemma {:induction false} ProcessCallsOtherSteps(st: State, find: Finder, calls: seq<ToolCall>, step: Step)
    requires !IsCallStep(step)
    ensures CountStep(ProcessCalls(st, find, calls).state.log, step) == CountStep(st.log, step)
    decreases |calls|
  {
    if |calls| > 0 {
      ProcessCallOtherSteps(st, find, calls[0], step);
      var p := ProcessCall(st, find, calls[0]);
      if !p.raised {
        ProcessCallsOtherSteps(p.state, find, calls[1..], step);
      }
    }
  }

  /** Correcting a line with a role free of line breaks keeps the number of lines. */
  lemma {:induction false} CorrectionKeepsLines(transcript: string, index: nat, oldRole: string, newRole: string,
                                                log: seq<LogEntry>)
    requires '\n' !in newRole
    ensures |Split(CorrectSingleUtterance(transcript, index, oldRole, newRole, log).text, '\n')| ==
      |Split(transcript, '\n')|
  {
    if index < |Split(transcript, '\n')| {
      CorrectionRewritesOneLine(transcript, index, oldRole, newRole, log);
    }
  }

  /** A call whose correct role has no line break keeps the number of lines. */
  lemma {:induction false} ProcessCallKeepsLines(st: State, find: Finder, call: ToolCall)
    requires KeepsLines(call)
    ensures |Split(ProcessCall(st, find, call).state.text, '\n')| == |Split(st.text, '\n')|
  {
    match call.args
    case Undecodable =>
    case Fields(current, prefix, correct, reason) =>
      if call.name == ToolName && prefix.Some? {
        var st1 := Note(st, ToolCallMade(call.name, call.args));
        match find(st1.text, FormatArg(current), prefix.value)
        case None =>
        case Some(f) =>
          CorrectionKeepsLines(st1.text, f.index, FormatArg(current), FormatArg(correct), st1.log);
      }
  }

  /** Calls whose correct roles have no line break keep the number of lines. */
  lemma {:induction false} ProcessCallsKeepLines(st: State, find: Finder, calls: seq<ToolCall>)
    requires forall i :: 0 <= i < |calls| ==> KeepsLines(calls[i])
    ensures |Split(ProcessCalls(st, find, calls).state.text, '\n')| == |Split(st.text, '\n')|
    decreases |calls|
  {
    if |calls| > 0 {
      ProcessCallKeepsLines(st, find, calls[0]);
      var p := ProcessCall(st, find, calls[0]);
      if !p.raised {
        assert forall i :: 0 <= i < |calls[1..]| ==> calls[1..][i] == calls[i + 1];
        ProcessCallsKeepLines(p.state, find, calls[1..]);
      }
    }
  }

  /** An entry the round logs itself, not a tool call. */
  predicate IsRoundEntry(e: LogEntry) {
    e.SafeguardStart? || e.SafeguardIteration? || e.ToolCallsRequested? || e.SafeguardComplete? ||
    e.SafeguardError? || e.SafeguardEnd?
  }

  /** Appending an entry of the round itself, not of a tool call: it adds to
      the count of its own step only. */
  function Enter(st: State, e: LogEntry): (r: State)
    requires IsRoundEntry(e)
    ensures r.text == st.text && r.corrections == st.corrections && r.log == st.log + [e]
    ensures CountStep(r.log, UtteranceCorrectedStep) == CountStep(st.log, UtteranceCorrectedStep)
    ensures CountStep(r.log, CorrectionErrorStep) == CountStep(st.log, CorrectionErrorStep)
    ensures CountStep(r.log, SafeguardIterationStep) ==
      CountStep(st.log, SafeguardIterationStep) + (if e.SafeguardIteration? then 1 else 0)
  {
    CountStepSnoc(st.log, e, UtteranceCorrectedStep);
    CountStepSnoc(st.log, e, CorrectionErrorStep);
    CountStepSnoc(st.log, e, SafeguardIterationStep);
    st.(log := st.log + [e])
  }

  /** The `safeguard_complete` entry of a round whose reply asked for no tool:
      it reports the corrections made so far. */
  function CompleteEntry(corrections: seq<Correction>): (e: LogEntry)
    ensures e.SafeguardComplete? && e.totalCorrections == |corrections|
    ensures e.message == "No corrections needed" <==> |corrections| == 0
  {
    SafeguardComplete(if |corrections| == 0 then "No corrections needed" else "All corrections completed", |corrections|)
  }

  /** The reply of round `iter` (counted from 0); once the script runs out,
      the call raises. */
  function ReplyAt(responses: seq<Response>, iter: nat): Response {
    if iter < |responses| then responses[iter] else Raise
  }

  /** A reply that ends the loop with nothing corrected in its round. */
  predicate Quiet(reply: Response) {
    reply.Raise? || reply.NoTools? || (reply.Tools? && |reply.calls| == 0)
  }

  /** Every correct role any reply names is free of line breaks. */
  predicate RepliesKeepLines(responses: seq<Response>) {
    forall i, j :: 0 <= i < |responses| && responses[i].Tools? && 0 <= j < |responses[i].calls| ==>
      KeepsLines(responses[i].calls[j])
  }

  /** The calls of one reply keep the lines when every reply does. */
  lemma {:induction false} ReplyKeepsLines(responses: seq<Response>, iter: nat, calls: seq<ToolCall>)
    requires RepliesKeepLines(responses) && ReplyAt(responses, iter) == Tools(calls)
    ensures forall j :: 0 <= j < |calls| ==> KeepsLines(calls[j])
  {
    assert iter < |responses| && responses[iter] == Tools(calls);
  }

  /** The calls the rounds from `iter` on carry out, in order, starting from
      transcript `text` with `made` corrections so far: each reply's calls up
      to the first that raises; another round follows only when none raised,
      some correction has been made and a round is left. Replies without
      calls, and raising replies, carry out none. */
  function Processed(iter: nat, text: string, made: nat, find: Finder, responses: seq<Response>): seq<ToolCall>
    requires iter < MaxIterations
    decreases MaxIterations - iter
  {
    match ReplyAt(responses, iter)
    case Tools(calls) =>
      var done := calls[..FirstRaise(calls)];
      var total := made + |Made(text, find, done)|;
      if |calls| > 0 && !SomeRaises(calls) && total > 0 && iter < MaxIterations - 1 then
        done + Processed(iter + 1, Apply(text, find, done), total, find, responses)
      else done
    case _ => []
  }

  /** Rounds `iter + 1` up to `MaxIterations`. Each logs its number and asks
      for a reply: a raise logs `safeguard_error` and stops; a reply without
      tool calls logs `safeguard_complete` and stops; otherwise the calls are
      handled and the loop goes on only while some correction has been made,
      in this round or an earlier one, and a round is left. */
  function Rounds(iter: nat, st: State, find: Finder, responses: seq<Response>): (r: State)
    requires iter < MaxIterations
    ensures Grows(st, r) && |r.log| > |st.log|
    ensures Quiet(ReplyAt(responses, iter)) ==> r.text == st.text && r.corrections == st.corrections
    ensures ReplyAt(responses, iter).Raise? ==> r.log == st.log + [SafeguardIteration(iter + 1), SafeguardError]
    ensures Quiet(ReplyAt(responses, iter)) && !ReplyAt(responses, iter).Raise? ==>
      r.log == st.log + [SafeguardIteration(iter + 1), CompleteEntry(st.corrections)]
    ensures ReplyAt(responses, iter).Tools? && SomeRaises(ReplyAt(responses, iter).calls) ==>
      r.log[|r.log| - 1] == SafeguardError
    decreases MaxIterations - iter, 1
  {
    var st1 := Enter(st, SafeguardIteration(iter + 1));
    match ReplyAt(responses, iter)
    case Raise => Enter(st1, SafeguardError)
    case NoTools => Enter(st1, CompleteEntry(st1.corrections))
    case Tools(calls) =>
      if |calls| == 0 then Enter(st1, CompleteEntry(st1.corrections))
      else AfterCalls(iter, st1, find, calls, responses)
  }

  /** A round whose reply holds tool calls, from the `tool_calls_requested`
      entry on. */
  function AfterCalls(iter: nat, st: State, find: Finder, calls: seq<ToolCall>, responses: seq<Response>): (r: State)
    requires iter < MaxIterations && |calls| > 0
    requires ReplyAt(responses, iter) == Tools(calls)
    ensures Grows(st, r)
    ensures SomeRaises(calls) ==> |r.log| > 0 && r.log[|r.log| - 1] == SafeguardError
    decreases MaxIterations - iter, 0
  {
    var st1 := Enter(st, ToolCallsRequested(|calls|));
    var p := ProcessCalls(st1, find, calls);
    if p.raised then
      Enter(p.state, SafeguardError)
    else if |p.state.corrections| > 0 && iter < MaxIterations - 1 then
      Rounds(iter + 1, p.state, find, responses)
    else
      p.state
  }

  /** With a finder in range, the rounds record one `utterance_corrected`
      entry per correction and no `correction_error`. */
  lemma {:induction false} RoundsCorrectionsLogged(iter: nat, st: State, find: Finder, responses: seq<Response>)
    requires iter < MaxIterations && InRange(find)
    ensures CorrectionsLogged(st, Rounds(iter, st, find, responses))
    decreases MaxIterations - iter, 1
  {
    var st1 := Enter(st, SafeguardIteration(iter + 1));
    match ReplyAt(responses, iter)
    case Raise =>
    case NoTools =>
    case Tools(calls) =>
      if |calls| > 0 {
        AfterCallsCorrectionsLogged(iter, st1, find, calls, responses);
      }
  }

  lemma {:induction false} AfterCallsCorrectionsLogged(iter: nat, st: State, find: Finder, calls: seq<ToolCall>,
                                                       responses: seq<Response>)
    requires iter < MaxIterations && |calls| > 0 && InRange(find)
    requires ReplyAt(responses, iter) == Tools(calls)
    ensures CorrectionsLogged(st, AfterCalls(iter, st, find, calls, responses))
    decreases MaxIterations - iter, 0
  {
    var st1 := Enter(st, ToolCallsRequested(|calls|));
    var p := ProcessCalls(st1, find, calls);
    ProcessCallsCorrectionsLogged(st1, find, calls);
    if !p.raised && |p.state.corrections| > 0 && iter < MaxIterations - 1 {
      RoundsCorrectionsLogged(iter + 1, p.state, find, responses);
    }
  }

  /** The rounds from `iter + 1` on log at least one and at most the
      remaining number of `safeguard_iteration` entries, and exactly one when
      no correction exists at the end. */
  lemma {:induction false} RoundsIterations(iter: nat, st: State, find: Finder, responses: seq<Response>)
    requires iter < MaxIterations
    ensures var r := Rounds(iter, st, find, responses);
      && CountStep(st.log, SafeguardIterationStep) + 1 <= CountStep(r.log, SafeguardIterationStep)
      && CountStep(r.log, SafeguardIterationStep) <= CountStep(st.log, SafeguardIterationStep) + MaxIterations - iter
      && (|r.corrections| == 0 ==> CountStep(r.log, SafeguardIterationStep) == CountStep(st.log, SafeguardIterationStep) + 1)
      && (ReplyAt(responses, iter).Tools? && SomeRaises(ReplyAt(responses, iter).calls) ==>
            CountStep(r.log, SafeguardIterationStep) == CountStep(st.log, SafeguardIterationStep) + 1)
    decreases MaxIterations - iter, 1
  {
    var st1 := Enter(st, SafeguardIteration(iter + 1));
    match ReplyAt(responses, iter)
    case Raise =>
    case NoTools =>
    case Tools(calls) =>
      if |calls| > 0 {
        AfterCallsIterations(iter, st1, find, calls, responses);
      }
  }

  /** A round with tool calls adds no `safeguard_iteration` entry of its own,
      at most one per remaining round, and none when no correction exists
      or a call raised; when no call raised, a correction exists and a round
      remains, the next round runs and adds at least one. */
  lemma {:induction false} AfterCallsIterations(iter: nat, st: State, find: Finder, calls: seq<ToolCall>,
                                                responses: seq<Response>)
    requires iter < MaxIterations && |calls| > 0
    requires ReplyAt(responses, iter) == Tools(calls)
    ensures var r := AfterCalls(iter, st, find, calls, responses);
      && CountStep(st.log, SafeguardIterationStep) <= CountStep(r.log, SafeguardIterationStep)
      && CountStep(r.log, SafeguardIterationStep) <= CountStep(st.log, SafeguardIterationStep) + MaxIterations - iter - 1
      && (|r.corrections| == 0 ==> CountStep(r.log, SafeguardIterationStep) == CountStep(st.log, SafeguardIterationStep))
      && (SomeRaises(calls) ==> CountStep(r.log, SafeguardIterationStep) == CountStep(st.log, SafeguardIterationStep))
      && (!SomeRaises(calls) && |r.corrections| > 0 && iter < MaxIterations - 1 ==>
            CountStep(st.log, SafeguardIterationStep) + 1 <= CountStep(r.log, SafeguardIterationStep))
    decreases MaxIterations - iter, 0
  {
    var st1 := Enter(st, ToolCallsRequested(|calls|));
    var p := ProcessCalls(st1, find, calls);
    ProcessCallsOtherSteps(st1, find, calls, SafeguardIterationStep);
    if !p.raised && |p.state.corrections| > 0 && iter < MaxIterations - 1 {
      RoundsIterations(iter + 1, p.state, find, responses);
    }
  }

  /** The rounds leave the transcript with every call they carry out
      applied in order, and record exactly those calls' corrections: a
      raising call keeps what the calls before it did. */
  lemma {:induction false} RoundsApplies(iter: nat, st: State, find: Finder, responses: seq<Response>)
    requires iter < MaxIterations
    ensures var r := Rounds(iter, st, find, responses);
      var done := Processed(iter, st.text, |st.corrections|, find, responses);
      r.text == Apply(st.text, find, done) && r.corrections == st.corrections + Made(st.text, find, done)
    decreases MaxIterations - iter, 2
  {
    var st1 := Enter(st, SafeguardIteration(iter + 1));
    match ReplyAt(responses, iter)
    case Raise =>
    case NoTools =>
    case Tools(calls) =>
      if |calls| > 0 {
        AfterCallsApplies(iter, st1, find, calls, responses);
      } else {
        assert calls[..FirstRaise(calls)] == [];
      }
  }

  lemma {:induction false} AfterCallsApplies(iter: nat, st: State, find: Finder, calls: seq<ToolCall>,
                                             responses: seq<Response>)
    requires iter < MaxIterations && |calls| > 0
    requires ReplyAt(responses, iter) == Tools(calls)
    ensures var r := AfterCalls(iter, st, find, calls, responses);
      var done := Processed(iter, st.text, |st.corrections|, find, responses);
      r.text == Apply(st.text, find, done) && r.corrections == st.corrections + Made(st.text, find, done)
    decreases MaxIterations - iter, 1
  {
    if !SomeRaises(calls) && |st.corrections| + |Made(st.text, find, calls)| > 0 && iter < MaxIterations - 1 {
      var mid := AfterCallsContinues(iter, st, find, calls, responses);
      RoundsAfter(iter, st, mid, find, calls, responses);
    } else {
      AfterCallsStops(iter, st, find, calls, responses);
    }
  }

  /** When a round goes on from `mid`, the state its calls reached, the
      calls carried out are all of its calls, then those of the rounds
      after it. */
  lemma {:induction false} RoundsAfter(iter: nat, st: State, mid: State, find: Finder, calls: seq<ToolCall>,
                                       responses: seq<Response>)
    requires iter < MaxIterations - 1 && |calls| > 0
    requires ReplyAt(responses, iter) == Tools(calls)
    requires !SomeRaises(calls) && |st.corrections| + |Made(st.text, find, calls)| > 0
    requires mid.text == Apply(st.text, find, calls) && mid.corrections == st.corrections + Made(st.text, find, calls)
    ensures var r := Rounds(iter + 1, mid, find, responses);
      var done := Processed(iter, st.text, |st.corrections|, find, responses);
      r.text == Apply(st.text, find, done) && r.corrections == st.corrections + Made(st.text, find, done)
    decreases MaxIterations - iter, 0
  {
    var later := Processed(iter + 1, mid.text, |mid.corrections|, find, responses);
    ProcessedContinues(iter, st.text, |st.corrections|, find, calls, responses, mid.text, |mid.corrections|);
    RoundsApplies(iter + 1, mid, find, responses);
    AppliedInTurn(st, mid, Rounds(iter + 1, mid, find, responses), find, calls, later);
  }

  /** A round that raised, or that ends the loop, leaves the state its calls
      reached, and carries out no call after them. */
  lemma {:induction false} AfterCallsStops(iter: nat, st: State, find: Finder, calls: seq<ToolCall>,
                                           responses: seq<Response>)
    requires iter < MaxIterations && |calls| > 0
    requires ReplyAt(responses, iter) == Tools(calls)
    requires SomeRaises(calls) || |st.corrections| + |Made(st.text, find, calls)| == 0 || iter == MaxIterations - 1
    ensures var r := AfterCalls(iter, st, find, calls, responses);
      var done := calls[..FirstRaise(calls)];
      && Processed(iter, st.text, |st.corrections|, find, responses) == done
      && r.text == Apply(st.text, find, done) && r.corrections == st.corrections + Made(st.text, find, done)
  {
    assert !SomeRaises(calls) ==> calls[..FirstRaise(calls)] == calls;
    ProcessedTools(iter, st.text, |st.corrections|, find, responses, calls);
    ProcessCallsApplies(Enter(st, ToolCallsRequested(|calls|)), find, calls);
  }

  /** A round in which no call raised and some correction exists goes on
      with the next round, from the state the calls left. */
  lemma {:induction false} AfterCallsContinues(iter: nat, st: State, find: Finder, calls: seq<ToolCall>,
                                               responses: seq<Response>) returns (mid: State)
    requires iter < MaxIterations - 1 && |calls| > 0
    requires ReplyAt(responses, iter) == Tools(calls)
    requires !SomeRaises(calls) && |st.corrections| + |Made(st.text, find, calls)| > 0
    ensures mid.text == Apply(st.text, find, calls) && mid.corrections == st.corrections + Made(st.text, find, calls)
    ensures AfterCalls(iter, st, find, calls, responses) == Rounds(iter + 1, mid, find, responses)
  {
    assert calls[..FirstRaise(calls)] == calls;
    var st1 := Enter(st, ToolCallsRequested(|calls|));
    ProcessCallsApplies(st1, find, calls);
    mid := ProcessCalls(st1, find, calls).state;
  }

  /** The calls such a round carries out are all of its calls, followed by
      those of the rounds after it. */
  lemma {:induction false} ProcessedContinues(iter: nat, text: string, made: nat, find: Finder,
                                              calls: seq<ToolCall>, responses: seq<Response>,
                                              next: string, total: nat)
    requires iter < MaxIterations - 1 && |calls| > 0
    requires ReplyAt(responses, iter) == Tools(calls)
    requires !SomeRaises(calls) && made + |Made(text, find, calls)| > 0
    requires next == Apply(text, find, calls) && total == made + |Made(text, find, calls)|
    ensures Processed(iter, text, made, find, responses) == calls + Processed(iter + 1, next, total, find, responses)
  {
    assert calls[..FirstRaise(calls)] == calls;
    ProcessedTools(iter, text, made, find, responses, calls);
  }

  /** A state reached by applying `done` to `a`, then `later` to that
      state, is `a` with `done + later` applied. */
  lemma {:induction false} AppliedInTurn(a: State, mid: State, b: State, find: Finder,
                                         done: seq<ToolCall>, later: seq<ToolCall>)
    requires mid.text == Apply(a.text, find, done) && mid.corrections == a.corrections + Made(a.text, find, done)
    requires b.text == Apply(mid.text, find, later) && b.corrections == mid.corrections + Made(mid.text, find, later)
    ensures b.text == Apply(a.text, find, done + later) && b.corrections == a.corrections + Made(a.text, find, done + later)
  {
    ApplyAppend(a.text, find, done, later);
    AppendAssoc(a.corrections, Made(a.text, find, done), Made(mid.text, find, later));
  }

  lemma AppendAssoc<T>(x: seq<T>, y: seq<T>, z: seq<T>)
    ensures x + y + z == x + (y + z)
  {
  }

  /** One step of `Processed` for a reply with calls. */
  lemma {:induction false} ProcessedTools(iter: nat, text: string, made: nat, find: Finder, responses: seq<Response>,
                                          calls: seq<ToolCall>)
    requires iter < MaxIterations && |calls| > 0
    requires ReplyAt(responses, iter) == Tools(calls)
    ensures var done := calls[..FirstRaise(calls)];
      var total := made + |Made(text, find, done)|;
      Processed(iter, text, made, find, responses) ==
        if !SomeRaises(calls) && total > 0 && iter < MaxIterations - 1
        then done + Processed(iter + 1, Apply(text, find, done), total, find, responses)
        else done
  {
  }

  /** When no reply names a correct role with a line break, the rounds keep
      the number of lines. */
  lemma {:induction false} RoundsKeepLines(iter: nat, st: State, find: Finder, responses: seq<Response>)
    requires iter < MaxIterations && RepliesKeepLines(responses)
    ensures |Split(Rounds(iter, st, find, responses).text, '\n')| == |Split(st.text, '\n')|
    decreases MaxIterations - iter, 1
  {
    var st1 := Enter(st, SafeguardIteration(iter + 1));
    match ReplyAt(responses, iter)
    case Raise =>
    case NoTools =>
    case Tools(calls) =>
      if |calls| > 0 {
        AfterCallsKeepLines(iter, st1, find, calls, responses);
      }
  }

  lemma {:induction false} AfterCallsKeepLines(iter: nat, st: State, find: Finder, calls: seq<ToolCall>,
                                               responses: seq<Response>)
    requires iter < MaxIterations && |calls| > 0 && RepliesKeepLines(responses)
    requires ReplyAt(responses, iter) == Tools(calls)
    ensures |Split(AfterCalls(iter, st, find, calls, responses).text, '\n')| == |Split(st.text, '\n')|
    decreases MaxIterations - iter, 0
  {
    var st1 := Enter(st, ToolCallsRequested(|calls|));
    ReplyKeepsLines(responses, iter, calls);
    var p := ProcessCalls(st1, find, calls);
    ProcessCallsKeepLines(st1, find, calls);
    if !p.raised && |p.state.corrections| > 0 && iter < MaxIterations - 1 {
      RoundsKeepLines(iter + 1, p.state, find, responses);
    }
  }

  /** `_find_utterance_by_prefix` only reports lines the transcript has. */
  lemma {:induction false} FindUtteranceInRange()
    ensures InRange(FindUtteranceByPrefix)
  {
    forall transcript, role, prefix | FindUtteranceByPrefix(transcript, role, prefix).Some?
      ensures FindUtteranceByPrefix(transcript, role, prefix).value.index < |Split(transcript, '\n')|
    {
      assert LineOf(transcript, role, prefix).Some?;
    }
  }

  /** `run_safeguard_validation`: `safeguard_start`, at most three rounds,
      then `safeguard_end` with every correction made. Whatever happens in
      the rounds, the transcript returned is the input with every call the
      rounds carried out applied in order, and the corrections listed are
      those calls' own. The program looks
      utterances up with `FindUtteranceByPrefix`; the run is stated for any
      finder, and `FindUtteranceInRange` shows that one is in range. */
  function RunSafeguard(transcript: string, targetRoles: seq<string>, find: Finder, responses: seq<Response>,
                        log: seq<LogEntry>): (r: Logged)
    ensures |r.log| >= |log| + 3 && r.log[..|log|] == log && r.log[|log|] == SafeguardStart(targetRoles)
    ensures r.log[|r.log| - 1].SafeguardEnd?
    ensures var cs := r.log[|r.log| - 1].correctionsMade;
      && r.log[|r.log| - 1].totalCorrections == |cs|
      && (|cs| == 0 ==> r.text == transcript)
      && (Quiet(ReplyAt(responses, 0)) ==> r.text == transcript && cs == [])
    ensures var done := Processed(0, transcript, 0, find, responses);
      && r.text == Apply(transcript, find, done)
      && r.log[|r.log| - 1].correctionsMade == Made(transcript, find, done)
  {
    var st := Enter(State(transcript, [], log), SafeguardStart(targetRoles));
    RoundsApplies(0, st, find, responses);
    var fin := Rounds(0, st, find, responses);
    var last := Enter(fin, SafeguardEnd(fin.corrections, |fin.corrections|));
    assert last.log[..|log|] == log by {
      assert log <= st.log <= fin.log <= last.log;
    }
    Logged(last.text, last.log)
  }

  /** With a finder in range, the safeguard logs one `utterance_corrected`
      entry per correction it reports at the end, and never
      `correction_error`. */
  lemma {:induction false} SafeguardCorrectionsLogged(transcript: string, targetRoles: seq<string>, find: Finder,
                                                      responses: seq<Response>, log: seq<LogEntry>)
    requires InRange(find)
    ensures var r := RunSafeguard(transcript, targetRoles, find, responses, log);
      && |r.log[|r.log| - 1].correctionsMade| ==
           CountStep(r.log, UtteranceCorrectedStep) - CountStep(log, UtteranceCorrectedStep)
      && CountStep(r.log, CorrectionErrorStep) == CountStep(log, CorrectionErrorStep)
  {
    var st := Enter(State(transcript, [], log), SafeguardStart(targetRoles));
    RoundsCorrectionsLogged(0, st, find, responses);
  }

  /** The safeguard runs one to three rounds, and exactly one when it makes
      no correction. */
  lemma {:induction false} SafeguardIterations(transcript: string, targetRoles: seq<string>, find: Finder,
                                               responses: seq<Response>, log: seq<LogEntry>)
    ensures var r := RunSafeguard(transcript, targetRoles, find, responses, log);
      && 1 <= CountStep(r.log, SafeguardIterationStep) - CountStep(log, SafeguardIterationStep) <= MaxIterations
      && (r.log[|r.log| - 1].correctionsMade == [] ==>
            CountStep(r.log, SafeguardIterationStep) == CountStep(log, SafeguardIterationStep) + 1)
  {
    var st := Enter(State(transcript, [], log), SafeguardStart(targetRoles));
    RoundsIterations(0, st, find, responses);
  }

  /** When no reply names a correct role with a line break, the safeguard
      keeps the number of lines. */
  lemma {:induction false} SafeguardKeepsLines(transcript: string, targetRoles: seq<string>, find: Finder,
                                               responses: seq<Response>, log: seq<LogEntry>)
    requires RepliesKeepLines(responses)
    ensures |Split(RunSafeguard(transcript, targetRoles, find, responses, log).text, '\n')| == |Split(transcript, '\n')|
  {
    var st := Enter(State(transcript, [], log), SafeguardStart(targetRoles));
    RoundsKeepLines(0, st, find, responses);
  }

  /** A script whose first reply holds tool calls and whose second asks for
      none: the transcript returned is the input with the calls before the
      first that raises applied in order, and the corrections listed are
      theirs. */
  lemma {:induction false} OneRoundRun(transcript: string, targetRoles: seq<string>, find: Finder,
                                       calls: seq<ToolCall>, log: seq<LogEntry>)
    ensures var r := RunSafeguard(transcript, targetRoles, find, [Tools(calls), NoTools], log);
      var done := calls[..FirstRaise(calls)];
      && r.text == Apply(transcript, find, done)
      && r.log[|r.log| - 1].correctionsMade == Made(transcript, find, done)
  {
    var responses := [Tools(calls), NoTools];
    var done := calls[..FirstRaise(calls)];
    assert ReplyAt(responses, 0) == Tools(calls) && ReplyAt(responses, 1) == NoTools;
    assert Processed(1, Apply(transcript, find, done), |Made(transcript, find, done)|, find, responses) == [];
    assert done + [] == done;
  }

  /** A script whose one reply holds a call that raises: the loop logs
      `safeguard_error` and stops, and the transcript returned is the input
      with the calls before the raising one applied in order, with their
      corrections listed. */
  lemma {:induction false} RaisingRoundRun(transcript: string, targetRoles: seq<string>, find: Finder,
                                           calls: seq<ToolCall>, log: seq<LogEntry>)
    requires SomeRaises(calls)
    ensures var r := RunSafeguard(transcript, targetRoles, find, [Tools(calls)], log);
      var done := calls[..FirstRaise(calls)];
      && r.text == Apply(transcript, find, done)
      && r.log[|r.log| - 1].correctionsMade == Made(transcript, find, done)
      && r.log[|r.log| - 2] == SafeguardError
  {
    var responses := [Tools(calls)];
    assert ReplyAt(responses, 0) == Tools(calls);
    ProcessedTools(0, transcript, 0, find, responses, calls);
    RaisingRoundLog(transcript, targetRoles, find, calls, log);
  }

  /** A raising reply leaves `safeguard_error` just before `safeguard_end`. */
  lemma {:induction false} RaisingRoundLog(transcript: string, targetRoles: seq<string>, find: Finder,
                                           calls: seq<ToolCall>, log: seq<LogEntry>)
    requires SomeRaises(calls)
    ensures var r := RunSafeguard(transcript, targetRoles, find, [Tools(calls)], log);
      r.log[|r.log| - 2] == SafeguardError
  {
    var responses := [Tools(calls)];
    assert ReplyAt(responses, 0) == Tools(calls);
    var st := Enter(State(transcript, [], log), SafeguardStart(targetRoles));
    var fin := Rounds(0, st, find, responses);
    assert RunSafeguard(transcript, targetRoles, find, responses, log).log ==
      fin.log + [SafeguardEnd(fin.corrections, |fin.corrections|)];
  }

  /** One call applied on its own. */
  lemma {:induction false} ApplyOne(text: string, find: Finder, call: ToolCall)
    ensures Apply(text, find, [call]) == CallText(text, find, call)
    ensures Made(text, find, [call]) == CallCorrection(text, find, call)
  {
    assert [call][1..] == [];
  }

  /** When the first call of a reply corrects an utterance and the second
      raises, the loop logs `safeguard_error` and stops, and the transcript
      returned keeps the first call's rewrite, with its one correction
      listed; with a finder in range that is the found line rewritten from
      the current to the correct role. */
  lemma {:induction false} RaiseKeepsEarlierCorrection(transcript: string, targetRoles: seq<string>, find: Finder,
                                                       first: ToolCall, second: ToolCall, log: seq<LogEntry>)
    requires Corrects(transcript, find, first) && Raises(second)
    ensures var r := RunSafeguard(transcript, targetRoles, find, [Tools([first, second])], log);
      && r.text == CallText(transcript, find, first)
      && r.log[|r.log| - 1].correctionsMade ==
           [Correction(first.args.currentRole, first.args.correctRole, first.args.reason)]
      && r.log[|r.log| - 2] == SafeguardError
    ensures var r := RunSafeguard(transcript, targetRoles, find, [Tools([first, second])], log);
      var lines := Split(transcript, '\n');
      var i := find(transcript, FormatArg(first.args.currentRole), first.args.utterancePrefix.value).value.index;
      InRange(find) ==>
        r.text == Join(lines[i := RewriteLine(lines[i], FormatArg(first.args.currentRole),
                                              FormatArg(first.args.correctRole))], '\n')
  {
    var calls := [first, second];
    assert FirstRaise(calls) == 1 by {
      assert !Raises(calls[0]) && calls[1..] == [second];
    }
    assert calls[..FirstRaise(calls)] == [first];
    RaisingRoundRun(transcript, targetRoles, find, calls, log);
    ApplyOne(transcript, find, first);
    var i := find(transcript, FormatArg(first.args.currentRole), first.args.utterancePrefix.value).value.index;
    if InRange(find) {
      CorrectionRewritesOneLine(transcript, i, FormatArg(first.args.currentRole), FormatArg(first.args.correctRole), []);
    }
  }
}

=== FILE: strorder.dfy ===
/**
 * Python's ordering of `str` values (lexicographic by code point, a proper
 * prefix sorting first) and `sorted(keys, reverse=True)` over a set of
 * distinct keys.
 */
module StrOrder {

  /** Python's `a < b` on strings. */
  predicate Less(a: string, b: string)
    decreases |a|
  {
    if |b| == 0 then false
    else if |a| == 0 then true
    else if a[0] != b[0] then a[0] < b[0]
    else Less(a[1..], b[1..])
  }

  lemma {:induction false} LessIrreflexive(a: string)
    ensures !Less(a, a)
    decreases |a|
  {
    if |a| > 0 {
      LessIrreflexive(a[1..]);
    }
  }

  lemma {:induction false} LessAsymmetric(a: string, b: string)
    ensures !(Less(a, b) && Less(b, a))
    decreases |a|
  {
    if |a| > 0 && |b| > 0 && a[0] == b[0] {
      LessAsymmetric(a[1..], b[1..]);
    }
  }

  lemma {:induction false} LessTransitive(a: string, b: string, c: string)
    requires Less(a, b) && Less(b, c)
    ensures Less(a, c)
    decreases |a|
  {
    if |a| > 0 && a[0] == b[0] && b[0] == c[0] {
      LessTransitive(a[1..], b[1..], c[1..]);
    }
  }

  lemma {:induction false} LessTotal(a: string, b: string)
    ensures a == b || Less(a, b) || Less(b, a)
    decreases |a|
  {
    if |a| > 0 && |b| > 0 && a[0] == b[0] {
      LessTotal(a[1..], b[1..]);
      if a[1..] == b[1..] {
        assert a == [a[0]] + a[1..] && b == [b[0]] + b[1..];
      }
    }
  }

  /** `m` is the largest element of `s`. */
  predicate IsGreatest(m: string, s: set<string>) {
    m in s && forall x :: x in s && x != m ==> Less(x, m)
  }

  lemma {:induction false} GreatestExists(s: set<string>)
    requires s != {}
    ensures exists m :: IsGreatest(m, s)
    decreases |s|
  {
    var y :| y in s;
    var rest := s - {y};
    if rest == {} {
      assert s == {y};
      assert IsGreatest(y, s);
    } else {
      GreatestExists(rest);
      var m :| IsGreatest(m, rest);
      LessTotal(m, y);
      if Less(m, y) {
        forall x | x in s && x != y
          ensures Less(x, y)
        {
          if x != m {
            LessTransitive(x, m, y);
          }
        }
        assert IsGreatest(y, s);
      } else {
        assert IsGreatest(m, s);
      }
    }
  }

  lemma {:induction false} GreatestUnique(s: set<string>)
    ensures forall a, b :: IsGreatest(a, s) && IsGreatest(b, s) ==> a == b
  {
    forall a, b | IsGreatest(a, s) && IsGreatest(b, s)
      ensures a == b
    {
      LessAsymmetric(a, b);
    }
  }

  /** The largest element of a non-empty set of strings. */
  function Greatest(s: set<string>): (m: string)
    requires s != {}
    ensures IsGreatest(m, s)
  {
    GreatestExists(s);
    GreatestUnique(s);
    var m :| IsGreatest(m, s);
    m
  }

  /** A sequence in strictly decreasing Python order (so without repeats). */
  predicate StrictlyDescending(r: seq<string>) {
    forall i, j :: 0 <= i < j < |r| ==> Less(r[j], r[i])
  }

  /** No element occurs twice. */
  predicate Distinct(r: seq<string>) {
    forall i, j :: 0 <= i < j < |r| ==> r[i] != r[j]
  }

  /** A strictly descending list has no repeats. */
  lemma {:induction false} DescendingDistinct(r: seq<string>)
    requires StrictlyDescending(r)
    ensures Distinct(r)
  {
    forall i, j | 0 <= i < j < |r|
      ensures r[i] != r[j]
    {
      LessIrreflexive(r[i]);
    }
  }

  /** Python's `sorted(s, reverse=True)` for a set `s`. */
  function SortedDescending(s: set<string>): (r: seq<string>)
    ensures |r| == |s|
    ensures forall i :: 0 <= i < |r| ==> r[i] in s
    ensures forall x :: x in s ==> x in r
    ensures StrictlyDescending(r)
    decreases |s|
  {
    if s == {} then []
    else
      var m := Greatest(s);
      var rest := SortedDescending(s - {m});
      assert forall i :: 0 <= i < |rest| ==> Less(rest[i], m);
      [m] + rest
  }

  /** A strictly descending sequence is determined by its elements: any such
      arrangement of `s` is the one `SortedDescending` builds. */
  lemma {:induction false} DescendingUnique(r: seq<string>, s: set<string>)
    requires StrictlyDescending(r)
    requires forall i :: 0 <= i < |r| ==> r[i] in s
    requires forall x :: x in s ==> x in r
    ensures r == SortedDescending(s)
    decreases |r|
  {
    if |r| == 0 {
      assert s == {};
    } else {
      assert IsGreatest(r[0], s) by {
        forall x | x in s && x != r[0]
          ensures Less(x, r[0])
        {
          var i :| 0 <= i < |r| && r[i] == x;
        }
      }
      GreatestUnique(s);
      var rest := s - {r[0]};
      forall x | x in rest
        ensures x in r[1..]
      {
        var i :| 0 <= i < |r| && r[i] == x;
      }
      forall i | 0 <= i < |r[1..]|
        ensures r[1..][i] in rest
      {
        LessIrreflexive(r[0]);
      }
      DescendingUnique(r[1..], rest);
    }
  }
}

=== FILE: substitution.dfy ===
/**
 * Label substitution, shared verbatim by `_replace_speakers` (classifier.py),
 * `_replace_labels` (classifier_v2.py) and, without the log, by
 * `_replace_speakers` (classifier_backup.py): for each key of the mapping in
 * reverse-sorted order, every `tag:` anywhere in the current text becomes
 * `role:`. Replacements are applied to the text produced by the previous
 * ones, and the substitution is not anchored to the start of a line.
 */
module Substitution {
  import opened PyStr
  import opened StrOrder
  import opened Log
  import opened Wrappers

  /** The text `tag:` the program searches for. */
  function Marker(tag: string): (r: string)
    ensures |r| > 0 && r[|r| - 1] == ':'
  {
    tag + ":"
  }

  lemma {:induction false} MarkerNewline(tag: string)
    requires '\n' !in tag
    ensures '\n' !in Marker(tag)
  {
    assert forall i :: 0 <= i < |Marker(tag)| - 1 ==> Marker(tag)[i] == tag[i];
  }

  /** No key and no role of the mapping contains a line break. */
  predicate NewlineFree(mapping: map<string, string>) {
    forall k :: k in mapping ==> '\n' !in k && '\n' !in mapping[k]
  }

  /** One replacement step with a newline-free mapping keeps the line breaks. */
  lemma {:induction false} ReplaceStepKeepsLines(s: string, k: string, mapping: map<string, string>)
    requires k in mapping
    ensures NewlineFree(mapping) ==>
      Occ(ReplaceAll(s, Marker(k), Marker(mapping[k])), '\n') == Occ(s, '\n')
  {
    if NewlineFree(mapping) {
      MarkerNewline(k);
      MarkerNewline(mapping[k]);
      ReplaceAllKeepsOcc(s, Marker(k), Marker(mapping[k]), '\n');
    }
  }

  /** The labels a list of replacement records names, in order. */
  function Froms(reps: seq<Replacement>): (r: seq<string>)
    ensures |r| == |reps|
    ensures forall j :: 0 <= j < |reps| ==> r[j] == reps[j].from
  {
    seq(|reps|, j requires 0 <= j < |reps| => reps[j].from)
  }

  /** Every record names a key of the mapping, the role it maps to, and a
      positive number of occurrences. */
  predicate Faithful(reps: seq<Replacement>, mapping: map<string, string>) {
    forall j :: 0 <= j < |reps| ==>
      reps[j].from in mapping && reps[j].to == mapping[reps[j].from] && reps[j].occurrences > 0
  }

  datatype Rewrite = Rewrite(text: string, replacements: seq<Replacement>)

  /** The text the loop has reached when it visits `keys[i]`: every `tag:` of
      the keys before it replaced by its `role:`. Replacing a `tag:` that does
      not occur changes nothing, so the loop's skip of an absent key and a
      plain `replace` agree. */
  function Stage(s: string, keys: seq<string>, mapping: map<string, string>, i: nat): string
    requires i <= |keys|
    requires forall j :: 0 <= j < |keys| ==> keys[j] in mapping
    decreases i
  {
    if i == 0 then s
    else
      assert forall j :: 0 <= j < |keys[1..]| ==> keys[1..][j] == keys[j + 1];
      Stage(ReplaceAll(s, Marker(keys[0]), Marker(mapping[keys[0]])), keys[1..], mapping, i - 1)
  }

  /** The `tag:` of `keys[i]` occurs in the text when its turn comes. */
  predicate OccursAtTurn(s: string, keys: seq<string>, mapping: map<string, string>, i: nat)
    requires i < |keys|
    requires forall j :: 0 <= j < |keys| ==> keys[j] in mapping
  {
    Contains(Stage(s, keys, mapping, i), Marker(keys[i]))
  }

  /** The record for `keys[i]`: its role and the number of its `tag:`
      occurrences in the text when its turn comes. */
  function RecordAt(s: string, keys: seq<string>, mapping: map<string, string>, i: nat): Replacement
    requires i < |keys|
    requires forall j :: 0 <= j < |keys| ==> keys[j] in mapping
  {
    Replacement(keys[i], mapping[keys[i]], Count(Stage(s, keys, mapping, i), Marker(keys[i])))
  }

  /** The records the loop over `keys` owes from `keys[i]` on: one for each
      key whose `tag:` occurs at its turn, in visiting order. */
  function RecordsFrom(s: string, keys: seq<string>, mapping: map<string, string>, i: nat): seq<Replacement>
    requires i <= |keys|
    requires forall j :: 0 <= j < |keys| ==> keys[j] in mapping
    decreases |keys| - i
  {
    if i == |keys| then []
    else
      var own := if OccursAtTurn(s, keys, mapping, i) then [RecordAt(s, keys, mapping, i)] else [];
      own + RecordsFrom(s, keys, mapping, i + 1)
  }

  /** What the loop over `keys` produces: the text after every key's turn and
      exactly the records owed. */
  predicate Substitutes(s: string, keys: seq<string>, mapping: map<string, string>, r: Rewrite)
    requires forall j :: 0 <= j < |keys| ==> keys[j] in mapping
  {
    r.text == Stage(s, keys, mapping, |keys|) && r.replacements == RecordsFrom(s, keys, mapping, 0)
  }

  /** Turn `i + 1` over `keys` is turn `i` over the rest of the keys, run on
      the text after the first key's turn. */
  lemma {:induction false} StageShift(s: string, keys: seq<string>, mapping: map<string, string>, i: nat)
    requires i < |keys|
    requires forall j :: 0 <= j < |keys| ==> keys[j] in mapping
    ensures forall j :: 0 <= j < |keys[1..]| ==> keys[1..][j] in mapping
    ensures Stage(s, keys, mapping, i + 1)
         == Stage(ReplaceAll(s, Marker(keys[0]), Marker(mapping[keys[0]])), keys[1..], mapping, i)
  {
    assert forall j :: 0 <= j < |keys[1..]| ==> keys[1..][j] == keys[j + 1];
  }

  /** The records owed from `keys[i]` on, for `i >= 1`, are those owed by the
      rest of the keys on the text after the first key's turn. */
  lemma {:induction false} RecordsShift(s: string, keys: seq<string>, mapping: map<string, string>, i: nat)
    requires 1 <= i <= |keys|
    requires forall j :: 0 <= j < |keys| ==> keys[j] in mapping
    ensures forall j :: 0 <= j < |keys[1..]| ==> keys[1..][j] in mapping
    ensures RecordsFrom(s, keys, mapping, i)
         == RecordsFrom(ReplaceAll(s, Marker(keys[0]), Marker(mapping[keys[0]])), keys[1..], mapping, i - 1)
    decreases |keys| - i
  {
    assert forall j :: 0 <= j < |keys[1..]| ==> keys[1..][j] == keys[j + 1];
    if i < |keys| {
      StageShift(s, keys, mapping, i);
      RecordsShift(s, keys, mapping, i + 1);
    }
  }

  /** Every record owed from `keys[i]` on is the record of some later key
      whose `tag:` occurs at its turn. */
  lemma {:induction false} RecordsFromAreOwed(s: string, keys: seq<string>, mapping: map<string, string>, i: nat, j: nat)
    requires i <= |keys|
    requires forall t :: 0 <= t < |keys| ==> keys[t] in mapping
    requires j < |RecordsFrom(s, keys, mapping, i)|
    ensures exists t :: i <= t < |keys| && OccursAtTurn(s, keys, mapping, t) &&
                        RecordsFrom(s, keys, mapping, i)[j] == RecordAt(s, keys, mapping, t)
    decreases |keys| - i
  {
    var head := if OccursAtTurn(s, keys, mapping, i) then [RecordAt(s, keys, mapping, i)] else [];
    if j >= |head| {
      RecordsFromAreOwed(s, keys, mapping, i + 1, j - |head|);
    }
  }

  /** With distinct keys, the record of `keys[t]` is owed from `keys[i]` on
      exactly when `t` is at or after `i` and its `tag:` occurs at its turn. */
  lemma {:induction false} RecordsFromMembership(s: string, keys: seq<string>, mapping: map<string, string>, i: nat, t: nat)
    requires i <= |keys| && t < |keys| && Distinct(keys)
    requires forall j :: 0 <= j < |keys| ==> keys[j] in mapping
    ensures RecordAt(s, keys, mapping, t) in RecordsFrom(s, keys, mapping, i)
        <==> i <= t && OccursAtTurn(s, keys, mapping, t)
    decreases |keys| - i
  {
    if i < |keys| {
      RecordsFromMembership(s, keys, mapping, i + 1, t);
      if t < i {
        var owed := RecordsFrom(s, keys, mapping, i);
        forall j | 0 <= j < |owed| ensures owed[j] != RecordAt(s, keys, mapping, t) {
          RecordsFromAreOwed(s, keys, mapping, i, j);
          var u :| i <= u < |keys| && OccursAtTurn(s, keys, mapping, u) && owed[j] == RecordAt(s, keys, mapping, u);
          assert keys[u] != keys[t];
        }
      } else if t > i {
        assert keys[t] != keys[i];
      }
    }
  }

  /** With distinct keys, the loop records `keys[t]` exactly when its `tag:`
      occurs when its turn comes, and that record counts the occurrences in
      the text at that turn. */
  lemma {:induction false} RecordedIff(s: string, keys: seq<string>, mapping: map<string, string>, r: Rewrite, t: nat)
    requires t < |keys| && Distinct(keys)
    requires forall j :: 0 <= j < |keys| ==> keys[j] in mapping
    requires Substitutes(s, keys, mapping, r)
    ensures RecordAt(s, keys, mapping, t) in r.replacements <==> Contains(Stage(s, keys, mapping, t), Marker(keys[t]))
    ensures RecordAt(s, keys, mapping, t).occurrences == Count(Stage(s, keys, mapping, t), Marker(keys[t]))
  {
    RecordsFromMembership(s, keys, mapping, 0, t);
  }

  /** The substitution loop over `keys`, in the given order. A key whose
      `tag:` does not occur in the current text is skipped without a record;
      otherwise its occurrences are counted and then all replaced. */
  function ReplaceInOrder(s: string, keys: seq<string>, mapping: map<string, string>): (r: Rewrite)
    requires forall i :: 0 <= i < |keys| ==> keys[i] in mapping
    ensures Faithful(r.replacements, mapping)
    ensures forall j :: 0 <= j < |r.replacements| ==> r.replacements[j].from in keys
    ensures |keys| > 0 && Contains(s, Marker(keys[0])) ==>
      |r.replacements| > 0 &&
      r.replacements[0] == Replacement(keys[0], mapping[keys[0]], Count(s, Marker(keys[0])))
    decreases |keys|
  {
    if |keys| == 0 then Rewrite(s, [])
    else
      var k := keys[0];
      var pat := Marker(k);
      assert forall j :: 0 <= j < |keys[1..]| ==> keys[1..][j] == keys[j + 1];
      if Contains(s, pat) then
        CountPositive(s, pat);
        var rest := ReplaceInOrder(ReplaceAll(s, pat, Marker(mapping[k])), keys[1..], mapping);
        Rewrite(rest.text, [Replacement(k, mapping[k], Count(s, pat))] + rest.replacements)
      else
        ReplaceInOrder(s, keys[1..], mapping)
  }

  /** The loop substitutes: its text is the text after every key's turn,
      and it records exactly the keys whose `tag:` occurs at their turn, in
      visiting order, each with the count at that turn. */
  lemma {:induction false} ReplaceInOrderSubstitutes(s: string, keys: seq<string>, mapping: map<string, string>)
    requires forall i :: 0 <= i < |keys| ==> keys[i] in mapping
    ensures Substitutes(s, keys, mapping, ReplaceInOrder(s, keys, mapping))
    decreases |keys|
  {
    if |keys| > 0 {
      var k := keys[0];
      var pat := Marker(k);
      var s' := ReplaceAll(s, pat, Marker(mapping[k]));
      var rest := ReplaceInOrder(s', keys[1..], mapping);
      StageShift(s, keys, mapping, |keys| - 1);
      RecordsShift(s, keys, mapping, 1);
      ReplaceInOrderSubstitutes(s', keys[1..], mapping);
      if !Contains(s, pat) {
        ReplaceAllAbsent(s, pat, Marker(mapping[k]));
      }
    }
  }

  /** Records follow the visiting order: descending keys give descending,
      hence distinct, records. */
  lemma {:induction false} ReplaceInOrderDescending(s: string, keys: seq<string>, mapping: map<string, string>)
    requires forall i :: 0 <= i < |keys| ==> keys[i] in mapping
    requires StrictlyDescending(keys)
    ensures StrictlyDescending(Froms(ReplaceInOrder(s, keys, mapping).replacements))
    decreases |keys|
  {
    if |keys| > 0 {
      var k := keys[0];
      var pat := Marker(k);
      assert forall i :: 0 <= i < |keys[1..]| ==> keys[1..][i] == keys[i + 1];
      if Contains(s, pat) {
        var s' := ReplaceAll(s, pat, Marker(mapping[k]));
        ReplaceInOrderDescending(s', keys[1..], mapping);
        var rest := ReplaceInOrder(s', keys[1..], mapping);
        BelowHead(keys, Froms(rest.replacements));
        PrependDescending(k, Froms(rest.replacements));
        assert Froms(ReplaceInOrder(s, keys, mapping).replacements) == [k] + Froms(rest.replacements);
      } else {
        ReplaceInOrderDescending(s, keys[1..], mapping);
      }
    }
  }

  /** Every element of a descending list after its head is below the head. */
  lemma {:induction false} BelowHead(keys: seq<string>, xs: seq<string>)
    requires |keys| > 0 && StrictlyDescending(keys)
    requires forall j :: 0 <= j < |xs| ==> xs[j] in keys[1..]
    ensures forall j :: 0 <= j < |xs| ==> Less(xs[j], keys[0])
  {
    forall j | 0 <= j < |xs|
      ensures Less(xs[j], keys[0])
    {
      var i :| 0 <= i < |keys[1..]| && keys[1..][i] == xs[j];
      assert keys[i + 1] == xs[j];
    }
  }

  /** A head above every element keeps a descending list descending. */
  lemma {:induction false} PrependDescending(k: string, xs: seq<string>)
    requires StrictlyDescending(xs)
    requires forall j :: 0 <= j < |xs| ==> Less(xs[j], k)
    ensures StrictlyDescending([k] + xs)
  {
    forall i, j | 0 <= i < j < |[k] + xs|
      ensures Less(([k] + xs)[j], ([k] + xs)[i])
    {
      if i > 0 {
        assert ([k] + xs)[i] == xs[i - 1] && ([k] + xs)[j] == xs[j - 1];
      }
    }
  }

  /** With no record the text is unchanged; and when no key's `tag:` occurs in
      the input, nothing is replaced and nothing is recorded. */
  lemma {:induction false} ReplaceInOrderUnchanged(s: string, keys: seq<string>, mapping: map<string, string>)
    requires forall i :: 0 <= i < |keys| ==> keys[i] in mapping
    ensures ReplaceInOrder(s, keys, mapping).replacements == [] ==> ReplaceInOrder(s, keys, mapping).text == s
    ensures (forall i :: 0 <= i < |keys| ==> !Contains(s, Marker(keys[i]))) ==>
      ReplaceInOrder(s, keys, mapping) == Rewrite(s, [])
    decreases |keys|
  {
    if |keys| > 0 {
      ReplaceInOrderUnchanged(s, keys[1..], mapping);
      assert forall j :: 0 <= j < |keys[1..]| ==> keys[1..][j] == keys[j + 1];
    }
  }

  /** With a newline-free mapping the number of line breaks is preserved. */
  lemma {:induction false} ReplaceInOrderKeepsLines(s: string, keys: seq<string>, mapping: map<string, string>)
    requires forall i :: 0 <= i < |keys| ==> keys[i] in mapping
    requires NewlineFree(mapping)
    ensures Occ(ReplaceInOrder(s, keys, mapping).text, '\n') == Occ(s, '\n')
    decreases |keys|
  {
    if |keys| > 0 {
      var k := keys[0];
      assert forall j :: 0 <= j < |keys[1..]| ==> keys[1..][j] == keys[j + 1];
      if Contains(s, Marker(k)) {
        var s' := ReplaceAll(s, Marker(k), Marker(mapping[k]));
        ReplaceStepKeepsLines(s, k, mapping);
        ReplaceInOrderKeepsLines(s', keys[1..], mapping);
      } else {
        ReplaceInOrderKeepsLines(s, keys[1..], mapping);
      }
    }
  }

  /** The keys of a mapping in the order the program visits them. */
  function KeyOrder(mapping: map<string, string>): (r: seq<string>)
    ensures forall i :: 0 <= i < |r| ==> r[i] in mapping
    ensures forall k :: k in mapping ==> k in r
    ensures StrictlyDescending(r)
  {
    SortedDescending(mapping.Keys)
  }

  /** The substitution with the program's key order, without a log. */
  function ApplyMapping(transcript: string, mapping: map<string, string>): (r: Rewrite)
    ensures Faithful(r.replacements, mapping)
    ensures StrictlyDescending(Froms(r.replacements))
    ensures r.replacements == [] ==> r.text == transcript
    ensures (forall k :: k in mapping ==> !Contains(transcript, Marker(k))) ==> r == Rewrite(transcript, [])
    ensures NewlineFree(mapping) ==> |Split(r.text, '\n')| == |Split(transcript, '\n')|
    ensures Substitutes(transcript, KeyOrder(mapping), mapping, r)
  {
    var keys := KeyOrder(mapping);
    var r := ReplaceInOrder(transcript, keys, mapping);
    ReplaceInOrderSubstitutes(transcript, keys, mapping);
    ReplaceInOrderDescending(transcript, keys, mapping);
    ReplaceInOrderUnchanged(transcript, keys, mapping);
    if NewlineFree(mapping) then
      ReplaceInOrderKeepsLines(transcript, keys, mapping);
      SplitCount(r.text, '\n');
      SplitCount(transcript, '\n');
      r
    else r
  }

  /** For the program's key order, a key's record is present exactly when its
      `tag:` occurs in the text its turn comes to, and it counts the
      occurrences there. */
  lemma {:induction false} ApplyMappingRecords(transcript: string, mapping: map<string, string>, t: nat)
    requires t < |KeyOrder(mapping)|
    ensures RecordAt(transcript, KeyOrder(mapping), mapping, t) in ApplyMapping(transcript, mapping).replacements
        <==> Contains(Stage(transcript, KeyOrder(mapping), mapping, t), Marker(KeyOrder(mapping)[t]))
    ensures RecordAt(transcript, KeyOrder(mapping), mapping, t).occurrences
         == Count(Stage(transcript, KeyOrder(mapping), mapping, t), Marker(KeyOrder(mapping)[t]))
  {
    DescendingDistinct(KeyOrder(mapping));
    RecordedIff(transcript, KeyOrder(mapping), mapping, ApplyMapping(transcript, mapping), t);
  }

  // ---------------------------------------------------------------------------
  // The substitution line by line

  /** No key's `tag:` occurs in `s`. */
  predicate NoMarker(s: string, mapping: map<string, string>) {
    forall k :: k in mapping ==> !Contains(s, Marker(k))
  }

  /** A line the substitution treats as a labelled line: with `Some(k)`, the
      line begins with `k:`, that is the only `k:` in it, no other key's
      `tag:` occurs in it, and once relabelled it holds no key's `tag:`; with
      `None`, no key's `tag:` occurs in it. */
  predicate CleanLine(line: string, lead: Option<string>, mapping: map<string, string>) {
    match lead
    case None => NoMarker(line, mapping)
    case Some(k) =>
      && k in mapping && Marker(k) <= line
      && !Contains(line[1..], Marker(k))
      && (forall k' :: k' in mapping && k' != k ==> !Contains(line, Marker(k')))
      && NoMarker(Marker(mapping[k]) + line[|Marker(k)|..], mapping)
  }

  /** A line with its leading `k:` replaced by `role:`. */
  function Relabel(line: string, lead: Option<string>, mapping: map<string, string>): string
    requires CleanLine(line, lead, mapping)
  {
    match lead
    case None => line
    case Some(k) => Marker(mapping[k]) + line[|Marker(k)|..]
  }

  function RelabelLines(lines: seq<string>, leads: seq<Option<string>>, mapping: map<string, string>): (r: seq<string>)
    requires |leads| == |lines|
    requires forall j :: 0 <= j < |lines| ==> CleanLine(lines[j], leads[j], mapping)
    ensures |r| == |lines|
    ensures forall j :: 0 <= j < |lines| ==> r[j] == Relabel(lines[j], leads[j], mapping)
  {
    seq(|lines|, j requires 0 <= j < |lines| => Relabel(lines[j], leads[j], mapping))
  }

  /** Each line at turn `i`. */
  function StageIn(lines: seq<string>, keys: seq<string>, mapping: map<string, string>, i: nat): (r: seq<string>)
    requires i <= |keys|
    requires forall j :: 0 <= j < |keys| ==> keys[j] in mapping
    ensures |r| == |lines|
    ensures forall j :: 0 <= j < |lines| ==> r[j] == Stage(lines[j], keys, mapping, i)
  {
    seq(|lines|, j requires 0 <= j < |lines| => Stage(lines[j], keys, mapping, i))
  }

  /** The turns leave a text without any key's `tag:` as it is. */
  lemma {:induction false} StageUntouched(s: string, keys: seq<string>, mapping: map<string, string>)
    requires forall j :: 0 <= j < |keys| ==> keys[j] in mapping
    requires NoMarker(s, mapping)
    ensures Stage(s, keys, mapping, |keys|) == s
    decreases |keys|
  {
    if |keys| > 0 {
      ReplaceAllAbsent(s, Marker(keys[0]), Marker(mapping[keys[0]]));
      StageShift(s, keys, mapping, |keys| - 1);
      StageUntouched(s, keys[1..], mapping);
    }
  }

  /** The turns relabel a clean line whose lead is among the keys. */
  lemma {:induction false} StageOfLine(line: string, lead: Option<string>, keys: seq<string>, mapping: map<string, string>)
    requires forall j :: 0 <= j < |keys| ==> keys[j] in mapping
    requires CleanLine(line, lead, mapping)
    requires lead.Some? ==> lead.value in keys
    ensures Stage(line, keys, mapping, |keys|) == Relabel(line, lead, mapping)
    decreases |keys|
  {
    if lead.None? {
      StageUntouched(line, keys, mapping);
    } else {
      var k := lead.value;
      StageShift(line, keys, mapping, |keys| - 1);
      var next := ReplaceAll(line, Marker(keys[0]), Marker(mapping[keys[0]]));
      if keys[0] == k {
        ReplaceAllOnlyAtHead(line, Marker(k), Marker(mapping[k]));
        StageUntouched(next, keys[1..], mapping);
      } else {
        ReplaceAllAbsent(line, Marker(keys[0]), Marker(mapping[keys[0]]));
        assert k in keys[1..];
        StageOfLine(line, lead, keys[1..], mapping);
      }
    }
  }

  /** The turns act on a joined text line by line. */
  lemma {:induction false} StageJoin(lines: seq<string>, keys: seq<string>, mapping: map<string, string>, i: nat)
    requires |lines| >= 1 && i <= |keys| && NewlineFree(mapping)
    requires forall j :: 0 <= j < |keys| ==> keys[j] in mapping
    ensures Stage(Join(lines, '\n'), keys, mapping, i) == Join(StageIn(lines, keys, mapping, i), '\n')
    decreases i
  {
    if i == 0 {
      assert StageIn(lines, keys, mapping, 0) == lines;
    } else {
      var k := keys[0];
      var moved := ReplaceAllIn(lines, Marker(k), Marker(mapping[k]));
      MarkerNewline(k);
      ReplaceAllJoin(lines, '\n', Marker(k), Marker(mapping[k]));
      StageShift(Join(lines, '\n'), keys, mapping, i - 1);
      StageJoin(moved, keys[1..], mapping, i - 1);
      forall j | 0 <= j < |lines|
        ensures StageIn(moved, keys[1..], mapping, i - 1)[j] == StageIn(lines, keys, mapping, i)[j]
      {
        StageShift(lines[j], keys, mapping, i - 1);
      }
      assert StageIn(moved, keys[1..], mapping, i - 1) == StageIn(lines, keys, mapping, i);
    }
  }

  /** On a transcript of clean lines the substitution relabels each line
      whose `tag:` starts it and leaves every other line as it is. */
  lemma {:induction false} ApplyMappingByLine(lines: seq<string>, leads: seq<Option<string>>, mapping: map<string, string>)
    requires |lines| >= 1 && |leads| == |lines| && NewlineFree(mapping)
    requires forall j :: 0 <= j < |lines| ==> CleanLine(lines[j], leads[j], mapping)
    ensures ApplyMapping(Join(lines, '\n'), mapping).text == Join(RelabelLines(lines, leads, mapping), '\n')
  {
    var keys := KeyOrder(mapping);
    StageJoin(lines, keys, mapping, |keys|);
    forall j | 0 <= j < |lines|
      ensures StageIn(lines, keys, mapping, |keys|)[j] == RelabelLines(lines, leads, mapping)[j]
    {
      StageOfLine(lines[j], leads[j], keys, mapping);
    }
    assert StageIn(lines, keys, mapping, |keys|) == RelabelLines(lines, leads, mapping);
  }

  datatype Logged = Logged(text: string, log: seq<LogEntry>)

  /** `_replace_speakers` (classifier.py) and `_replace_labels` (classifier_v2.py):
      the substitution followed by exactly one `label_replacement` entry that
      lists, in processing order and without repeats, the labels that occurred
      when their turn came, each with its role and occurrence count. */
  function ReplaceLabels(transcript: string, mapping: map<string, string>, log: seq<LogEntry>): (r: Logged)
    ensures r.text == ApplyMapping(transcript, mapping).text
    ensures r.log == log + [LabelReplacement(ApplyMapping(transcript, mapping).replacements)]
    ensures |r.log| == |log| + 1 && r.log[..|log|] == log
    ensures r.log[|log|].LabelReplacement?
    ensures Faithful(r.log[|log|].replacements, mapping)
    ensures StrictlyDescending(Froms(r.log[|log|].replacements))
    ensures r.log[|log|].replacements == [] ==> r.text == transcript
    ensures (forall k :: k in mapping ==> !Contains(transcript, Marker(k))) ==>
      r == Logged(transcript, log + [LabelReplacement([])])
    ensures NewlineFree(mapping) ==> |Split(r.text, '\n')| == |Split(transcript, '\n')|
    ensures Substitutes(transcript, KeyOrder(mapping), mapping, Rewrite(r.text, r.log[|log|].replacements))
  {
    var rw := ApplyMapping(transcript, mapping);
    Logged(rw.text, log + [LabelReplacement(rw.replacements)])
  }

  /** An empty mapping is the identity. */
  lemma {:induction false} EmptyMappingIsIdentity(transcript: string)
    ensures ApplyMapping(transcript, map[]) == Rewrite(transcript, [])
  {
    assert KeyOrder(map[]) == [];
  }
}

=== FILE: wrappers.dfy ===
/** Failure-compatible result types used throughout the model. */
module Wrappers {

  /** A value that may be absent (Python's `None`). */
  datatype Option<+T> = None | Some(value: T) {
    function GetOr(default: T): T {
      match this
      case Some(v) => v
      case None => default
    }
  }

  /** A computation that either produces a value or raises one of the modelled exceptions. */
  datatype Result<+R, +E> = Success(value: R) | Failure(error: E)

  /** A check that either passes or raises (a Python function returning `None` or raising). */
  datatype Outcome<+E> = Pass | Fail(error: E)
}
